=== FILE: README.md ===
# Value-bet engine: a Dafny model

This project models the decision logic of a sports value-bet engine. It has two builds:

- the Cloudflare Worker (`src/odds.ts`, `src/db.ts`);
- the older Express server (`index.js`).

For every head-to-head (moneyline) event the engine does four things:

1. It picks out the *sharp* bookmakers. These are bookmakers whose key or title contains a hint from an allow-list.
2. It turns each sharp bookmaker's prices into a vig-free probability vector.
3. It averages those vectors into a *fair* probability per outcome.
4. It finds the best price any bookmaker offers for each outcome.

It then emits a pick for every outcome whose expected value `odds * pFair - 1` reaches a threshold. Picks are stored first-write-wins, keyed on (event id, selection). Later, finished events are graded from the provider's final scores. Only picks that are still `upcoming` are touched.

Prices and probabilities are exact `real`s, so "the probabilities sum to 1" is proved exactly rather than up to rounding. A JavaScript number is modelled as `JsNum.Num`: a finite real, `±Infinity` or `NaN`. This matters because the two builds filter prices differently. The Worker keeps only `Number.isFinite` prices, both in its sharp vectors and in its best-price loop. The Express build rules out `NaN` only when it builds a sharp vector, and its best-price loop tests prices with `>` alone, so an infinite price can become a best price there.

A field the provider leaves out is the empty string. In every test the engine makes (`filter(Boolean)`, `!home`, `t || k`) the empty string is falsy, exactly like `undefined`. The one place the two differ is the Express build's `INSERT`; see "## Left out".

Modules, in pipeline order:

- `JsNum` — numbers, truthiness and comparisons.
- `Seqs` — sums, `indexOf`, `new Set` de-duplication, flattening.
- `Text` — lower-casing, `includes`, the default string sort, `join`.
- `Sharp` — the sharp classification.
- `Vig` — vig removal.
- `Feed` — the provider's events.
- `Consensus` — sharp vectors, the outcome universe and the fair probabilities.
- `BestPrice` — best-price shopping.
- `Scan` — the EV filter, the per-event and whole scan, and storing a scan.
- `Picks` — the pick table and its upsert.
- `Settle` — grading, score interpretation and the guarded update.
- `Batches` — grouping event ids for the scores requests.
- `Scenario` — one event worked end to end.

Both builds share one model wherever their code agrees. `Consensus.Build` selects the copy where they differ:

- the allow-list;
- the sharp-vector filter;
- the event guard;
- the finiteness test in the best-price loop.

## Model

| member | source | states |
|---|---|---|
| Seqs.IndexOf | src/odds.ts:144 | `indexOf`: the first position holding the value, or -1 exactly when it is absent |
| Seqs.Dedupe | src/odds.ts:122 | `Array.from(new Set(xs))`: no duplicates, the same members as `xs`, never longer |
| Seqs.FilterMappedUnique | src/odds.ts:109-112 | the `map(...).filter(...)` relation (each kept element's image sits at its rank among the kept ones, and nothing else is there) determines the filtered list: two lists that satisfy it for the same input are equal |
| Seqs.FilterMappedAll | src/odds.ts:109-112 | when the filter drops nothing, the filtered list is the plain map, element by element |
| Seqs.DedupeOrder | src/odds.ts:122 | the de-duplicated list keeps first-seen order: an earlier entry was seen earlier in the input |
| Text.Lower | src/odds.ts:16 | `toLowerCase` keeps the length, turns every upper-case ASCII letter into the letter 32 code units further on, keeps every other character, and leaves no upper-case letter |
| Text.LowerIdempotent | src/odds.ts:16 | lower-casing twice is lower-casing once |
| Text.Join | src/odds.ts:180 | `join` of no titles is empty and of one title is that title; with more titles the result starts with the first title and is at least as long as it plus one separator |
| Text.JoinSnoc | src/odds.ts:180 | appending a title appends the separator and then that title, so the titles appear in order with exactly one separator between neighbours |
| Text.JoinKeepsParts | src/odds.ts:180 | every joined title occurs in the result |
| Text.Sort | src/odds.ts:180 | `sort()` returns a permutation of its input, sorted by code units |
| Sharp.IsSharpByKeyOrTitle | src/odds.ts:15-18 | with hints free of spaces, a bookmaker is sharp exactly when its lower-cased key or its lower-cased title contains some hint: joining them with a space creates no match |
| Sharp.ExtraHintsIrrelevant | src/odds.ts:15-18 | adding hints that never occur in `key + " " + title` leaves the classification unchanged |
| Sharp.SameClassification | src/odds.ts:15-18 | two allow-lists classify every bookmaker alike when one holds the other's hints and each of its hints contains one of them |
| Sharp.WorkerCovered | src/odds.ts:4-13 | every Worker hint contains one of the five core hints, and all five are on the list |
| Sharp.LegacyCovered | index.js:16 | every Express hint contains one of the five core hints, and all five are on the list |
| Sharp.HintListsAgree | index.js:16-28 | the Express list (without "betfairex") and the Worker list classify every bookmaker exactly as the five core hints do |
| Vig.DecToProb | src/odds.ts:19 | the implied probability lies in [0, 1); it is 0 for a price of at most 1, and otherwise it times the price is 1 |
| Vig.DecToProbNum | index.js:17 | on a non-NaN number: in [0, 1), positive exactly for a finite price above 1, and 0 for an infinite price |
| Vig.Normalise | src/odds.ts:21-24 | rescaling non-negative values: none exactly when all are 0; otherwise a probability vector of the same length, proportional to the input, zero exactly where the input is zero |
| Vig.RemoveVigProportional | src/odds.ts:20-25 | none exactly when every price is at most 1; otherwise same length, entries in [0, 1] summing to exactly 1, zero exactly at prices of at most 1, and proportional to the implied probabilities |
| Vig.RemoveVigNum | index.js:19-24 | the same for the Express build's non-NaN numbers, an infinite price counting as implying 0 |
| Vig.RemoveVigBuildsAgree | index.js:19-24 | on finite prices both builds' vig removal return the same result |
| Feed.FindH2h | src/odds.ts:106 | `find(m => m.key === "h2h")`: none exactly when no market is head-to-head, otherwise the first head-to-head market |
| Feed.Offers | src/odds.ts:140-143 | every offer the best-price loop visits comes from a bookmaker's head-to-head market |
| Consensus.PresentNames | src/odds.ts:109 | the filtered names are non-empty and no more than the outcomes, and equal the outcome names when every name is present |
| Consensus.PresentNamesFiltered | src/odds.ts:109 | the filtered names are exactly the present outcome names in outcome order: each present name sits at its rank among the present ones |
| Consensus.FinitePrices | src/odds.ts:110-112 | the finite prices are no more than the outcomes, and equal all prices when every price is finite |
| Consensus.FinitePricesFiltered | src/odds.ts:110-112 | the finite prices are exactly the outcomes' finite prices in outcome order: each sits at its rank among the finite ones |
| Consensus.WorkerQuoteVector | src/odds.ts:109-117 | a vector exists exactly when as many names as finite prices survive the filters, at least one, with some price above 1; it is then a usable probability vector over the surviving names, and its probabilities are the vig-free prices |
| Consensus.WorkerVector | src/odds.ts:102-117 | a bookmaker yields a vector exactly when it is sharp, has a head-to-head market with outcomes, and that quote is usable |
| Consensus.WorkerVectorAligned | src/odds.ts:109-113 | with every name present and every price finite, the vector pairs each outcome's name with its own price |
| Consensus.WorkerVectorMisaligned | src/odds.ts:109-113 | filtering names and prices separately can misalign them: names [A, "", B] with prices [NaN, 3, 1.5] become A at 1/3 and B at 2/3 |
| Consensus.LegacyQuoteVector | index.js:113-118 | a vector exists exactly when no price is NaN and some finite price exceeds 1; its names are all the outcome names, unfiltered, and its probabilities are the Express vig removal of all the prices |
| Consensus.LegacyVector | index.js:108-118 | an Express bookmaker yields a vector exactly when it is sharp, has a head-to-head market, and that quote is usable |
| Consensus.SharpVectors | src/odds.ts:102-119 | every collected vector is usable, and each comes with one bookmaker title |
| Consensus.SharpVectorsFiltered | src/odds.ts:102-119 | the vectors are exactly those of the bookmakers that yield one, in bookmaker order, and the titles are those same bookmakers' `t \|\| k` |
| Consensus.NoVectors | src/odds.ts:120 | an event has no sharp vector exactly when every bookmaker yields none |
| Consensus.Universe | src/odds.ts:122 | the outcome universe has no duplicates and holds exactly the names some sharp vector quotes |
| Consensus.UniverseOrder | src/odds.ts:122 | the universe keeps first-seen order: an earlier outcome first occurs earlier in the vectors' names read vector by vector |
| Consensus.Quoted | src/odds.ts:124-128 | one probability per vector quoting the name (none when no vector quotes it), each in [0, 1] |
| Consensus.QuotedPerVector | src/odds.ts:124-128 | each vector that has the name contributes exactly one value, its probability at the name's first position, in vector order; vectors without the name contribute nothing |
| Consensus.QuotedByAll | src/odds.ts:124-128 | when every vector has the name, there is one value per vector: that vector's probability at the name's first position |
| Consensus.Mean | src/odds.ts:129-131 | the mean times the count is the sum; it is 0 for no values and lies in [0, 1] for values in [0, 1] |
| Consensus.FairProbs | src/odds.ts:123-132 | one fair probability per universe outcome, which is the mean of the values the vectors quote for it; each in [0, 1], and 0 for a name no vector quotes |
| Consensus.SharedUniverse | src/odds.ts:122 | when all vectors quote the same distinct outcomes, the universe is that outcome list |
| Consensus.SharedFairIsColumnMean | src/odds.ts:123-132 | when all vectors share their outcomes, each fair probability is the column sum of the probability matrix divided by the number of vectors |
| Consensus.SharedConsensusIsDistribution | src/odds.ts:122-132 | when all vectors share their outcomes, the fair probabilities themselves sum to exactly 1 |
| Consensus.SingleVectorConsensus | src/odds.ts:122-132 | with a single sharp vector, the universe is its names and the fair probabilities are its probabilities |
| Consensus.PairConsensus | src/odds.ts:122-132 | two sharp vectors over the same distinct outcomes keep that universe, and each fair probability is the average of the two quoted ones |
| Consensus.TwoVectorMean | index.js:128-136 | two vectors quoting 0.60/0.40 and 0.50/0.50 give the fair probabilities 0.55/0.45 |
| BestPrice.Initial | src/odds.ts:135-139 | every outcome starts with its own name, no bookmaker and a falsy price that any positive price beats |
| BestPrice.BestPrices | src/odds.ts:140-158 | the loop keeps one entry per universe outcome, in universe order |
| BestPrice.BestFor | src/odds.ts:140-158 | reference best price: no bookmaker exactly when it is 0; otherwise positive, no admitted price for the outcome beats it, and it was offered by the first bookmaker to offer that price |
| BestPrice.BestPricesPerOutcome | src/odds.ts:140-158 | the loop over all outcomes records, for each outcome, exactly its reference best price and bookmaker |
| BestPrice.OutsideUniverseIgnored | src/odds.ts:144-150 | offers for outcomes outside the universe never change the best prices |
| Scan.TrackedSports | src/odds.ts:52-64 | the tracked sport keys are exactly the listed keys starting with `tennis_` or `soccer_`, once each |
| Scan.SourceList | src/odds.ts:180 | the sharp sources are sorted, a permutation of the distinct titles, and hold exactly the titles seen |
| Scan.Analyse | src/odds.ts:98-158 | an event is analysed exactly when some bookmaker yields a sharp vector; then the universe holds exactly the names the vectors quote, and there is one fair probability and one best offer per outcome (their values are in `AnalysisFair` and `AnalysisBest`) |
| Scan.AnalysisFair | src/odds.ts:122-132 | each outcome's recorded fair probability is the mean of the probabilities the event's sharp vectors quote for it |
| Scan.AnalysisSources | src/odds.ts:180 | the recorded sources are the sorted distinct titles of the bookmakers that yielded a vector, joined by ", " |
| Scan.AnalysisBest | src/odds.ts:135-158 | each outcome's best offer is its reference best price over all bookmakers (finite prices only in the Worker build) |
| Scan.EvRows | src/odds.ts:161-183 | every row comes from a kept outcome and every kept outcome yields its row |
| Scan.EventRowsSelect | src/odds.ts:161-166 | an outcome gets a row exactly when it passes the filter |
| Scan.EvRowsDistinct | src/odds.ts:161-183 | the rows of an event never repeat a selection |
| Scan.EventRows | src/odds.ts:161-183 | an outcome gets a row exactly when its best price is non-zero, its fair probability is non-zero and its edge reaches `evMin`; no selection twice; every row carries the event, the `h2h` market, a universe selection, the sharp sources and a fair price of at least 1 |
| Scan.ScanEvent | src/odds.ts:91-183 | nothing for a Worker event missing its id, teams or start time, or for an event with no usable sharp vector; otherwise, and whenever the event is analysed and not skipped, exactly the EV filter's rows for its analysis |
| Scan.WorkerRowsFinite | src/odds.ts:145-178 | every Worker pick has a finite price and a finite EV equal to 100 × (price / fair price − 1), which is at least `evMin` |
| Scan.FiniteRowsValueBet | src/odds.ts:164-178 | with finite best prices, every emitted row is a value bet at `evMin` |
| Scan.InfiniteOfferWins | index.js:142-148 | an admitted `Infinity` offer makes the outcome's best price infinite |
| Scan.LegacyInfinitePick | index.js:138-172 | in the Express build an `Infinity` price for an outcome with positive fair probability yields a pick with infinite odds and EV |
| Scan.ScanFeedRows | src/odds.ts:91-184 | a row is in a sport's rows exactly when it is a row of one of the sport's events |
| Scan.ScanOnceRows | src/odds.ts:81-188 | a row is in a scan's rows exactly when it is a row of some event of some sport |
| Scan.StoreAll | index.js:151-173 | upserting a scan's rows counts every row; the table only grows, by at most the number of rows; every row's key ends up stored; new rows come from the scan and start `upcoming` |
| Scan.StoreAllKeepsUnique | src/db.ts:25-42 | storing a scan keeps at most one row per (event id, selection) |
| Scan.StoreAllPresent | src/db.ts:26-29 | rows whose keys are all stored already leave the table unchanged |
| Scan.RescanCountsAgain | index.js:154-171 | storing the same scan twice adds nothing the second time, yet `inserted` again counts every candidate |
| Picks.Find | src/db.ts:26-28 | the lookup finds the first row with the key, or -1 exactly when no row has it |
| Picks.Upsert | src/db.ts:25-42 | existing rows are kept in place; with the key present the table is unchanged, otherwise exactly one row is appended carrying the pick, status `upcoming` and no scores; the returned id names a row with the pick's key |
| Picks.UpsertKeepsUnique | src/db.ts:25-42 | a table with at most one row per key keeps that property |
| Picks.UpsertIdempotent | src/db.ts:25-42 | upserting a pick twice gives the same table and the same id as upserting it once |
| Picks.FirstWriteWins | src/db.ts:26-29 | after `p` is stored, a pick `q` with the same key changes nothing and the stored row keeps all of `p`'s fields |
| Settle.GradeDecides | src/odds.ts:230-235 | a pick naming the draw or one of the sides is always graded `won` or `lost` |
| Settle.GradeMatchesWinner | src/odds.ts:230-235 | with distinct names, a pick on the draw or a side is won exactly when it names the match winner and lost otherwise; any other selection keeps its status; `push` is never produced |
| Settle.SettleEvent | src/odds.ts:227-241 | pick data never changes; terminal rows and rows of other events are untouched; a status only changes from `upcoming` to `won` or `lost`; every upcoming row of the event gets the grade of its selection against the scores, the scores and the resolution time |
| Settle.SettleIdempotent | src/odds.ts:227-241 | settling the same result twice changes nothing the second time |
| Settle.GradedIsFinal | src/odds.ts:237 | once graded, a pick is never regraded by a later settlement of its event, whatever the scores |
| Settle.LastScore | index.js:71-73 | reference: the score of the last entry with the name, none exactly when no entry has it |
| Settle.ScoreMap | index.js:70-73 | the name-to-score map holds exactly the reported names, each with its last entry's score |
| Settle.InterpretScores | index.js:69-78 | both scores exactly when both teams' last entries are finite numbers, and then those numbers |
| Settle.ApplyReportsRow | src/odds.ts:219-242 | for one row: pick data never changes; a terminal row stays; a status only moves from `upcoming` to `won` or `lost`; a row of an event no settling report names is untouched; a changed row carries both scores and this run's time |
| Settle.ApplyReportsFrame | src/odds.ts:219-242 | the same for every row of the table |
| Settle.ApplyReportsRecords | src/odds.ts:219-242 | a settling report for an event records the scores and the run's time on every row of the event that was upcoming |
| Settle.ApplyReportsGrades | src/odds.ts:219-242 | a settling report for an event leaves every upcoming pick on it that names the draw or one of the report's teams `won` or `lost` |
| Batches.Slice | index.js:68 | `slice(i, i + n)` has `n` elements, fewer at the end, none past the end |
| Batches.SliceContents | index.js:68 | element `k` of `slice(i, i + n)` is element `i + k` of the array |
| Batches.BatchesFlatten | src/odds.ts:212-213 | the Worker's batches concatenate back to the id list |
| Batches.BatchesSizes | src/odds.ts:212-213 | every batch has between 1 and `n` ids, all but the last exactly `n` |
| Batches.ChunkUpToStarts | index.js:68 | after visiting indices below `k`, the reduce holds one slice per multiple of `n` below `k` |
| Batches.BatchesAt | src/odds.ts:212-213 | step `t` of the loop from `start` takes the slice beginning at `start + t * n` |
| Batches.BatchesCount | src/odds.ts:212-213 | from the batch start `j * n`, the loop takes one step per remaining multiple of `n` below the length |
| Batches.ChunkIsBatches | index.js:68 | `chunk(ids, n)` and the Worker's stepping loop produce the same batches |
| Batches.ChunkPartitions | index.js:68 | for `n >= 1` the chunks concatenate back to the input; each has 1 to `n` elements, all but the last exactly `n` |
| Batches.ChunkZero | index.js:68 | with `n = 0` every element contributes one empty chunk |
| Scenario.EvenMoney | src/odds.ts:20-25 | prices 2.0/2.0 remove to 0.5/0.5 |
| Scenario.SoftIsNotSharp | src/odds.ts:15-18 | "lowvig LowVig" matches no hint |
| Scenario.BestOfMatch | src/odds.ts:140-158 | the soft book's equal 2.0 on B does not displace the sharp book: the first bookmaker to reach a price keeps it |
| Scenario.MatchVectors | src/odds.ts:102-119 | of the sharp book and the soft book, only the sharp book yields a vector (0.5/0.5), and its title is the one source |
| Scenario.MatchConsensus | src/odds.ts:122-132 | one sharp vector is its own consensus: outcomes A, B with fair probabilities 0.5/0.5 |
| Scenario.MatchFilter | src/odds.ts:161-183 | at a 3% threshold A (edge 10%) becomes a row and B (edge 0) does not |
| Scenario.MatchPicks | src/odds.ts:91-183 | the worked event yields exactly one pick: A at 2.2, fair price 2, EV 10%, sharp source "Pinnacle" |

## Left out

- HTTP and scheduling are not modelled. This covers the routes, cron and `setInterval` timers, `apiGet` and `fetch`. Events, sport lists and score reports are inputs to the model. The commence-time window of the odds request is applied by the provider, so it is not modelled.
- `listSports` is modelled only as its key filter, `Scan.TrackedSports`.
- The SQL side of settlement is not modelled: which events are eligible (`datetime(...) <= now + 6 hours`, `DISTINCT`, `LIMIT 200`) and the grouping by sport. The model takes the score reports as given, and `Settle.ApplyReports` handles one response. Several responses are handled by applying it in sequence.
- `resolved_at` is one `now` value per call, because the wall clock is not modelled. The SQL takes the time per statement.
- `round`/`toFixed`: stored fields keep their exact values. Decimal string formatting has no real-number counterpart.
- `toLowerCase` is modelled for ASCII letters only.
- The string sort compares Dafny characters, which matches JavaScript's UTF-16 code-unit order for characters of the Basic Multilingual Plane.
- `evMin` is a finite real. An environment value that parses to `NaN` is not modelled.
- `chunk` is modelled for non-negative sizes; `0` is included. The Worker's loop is modelled for a step of at least 1, and its step is the constant 25.
- The check-then-insert race between concurrent upserts is out of scope. Runs are sequential.
- The statistics, upcoming and log queries are out of scope.
- Logging and environment parsing are out of scope.
- `score_home`/`score_away` are declared `INTEGER`. SQLite's column affinity is not modelled, so the scores are stored as the reals that were read.
- The Express build stores a pick whose event id, teams, start time or selection the provider left out as the empty string. The real `INSERT` (index.js:30-44) would bind `undefined` into a `NOT NULL` column (db.js:9-14) and throw. That aborts the rest of `scanOnce`; the error is caught by the timer (index.js:287-288). The model stores the empty string instead, so that failure is not modelled.
- Feed.Offers: its contract only states where offers come from. Their visiting order is fixed by the definition, and `BestPrice.BestFor` relies on that order.

## Behaviour as written

Some behaviour follows from the code as written and is worth knowing:

- **Best prices include sharp books.** The best-price loop visits every bookmaker, sharp ones included. So a sharp book's own price can be an outcome's best price; see `Scenario.BestOfMatch`.
- **Separate filters can misalign a vector (Worker).** The Worker filters names and prices separately. A quote with a missing name and a non-finite price can pair a name with another outcome's price; see `Consensus.WorkerVectorMisaligned`.
- **Infinite prices pass the Express filter.** The Express build checks only for `NaN`, so an `Infinity` price becomes the best price and is stored as a pick; see `Scan.LegacyInfinitePick`.
- **Scores are written to every upcoming row of the event.** The settlement `UPDATE` writes the scores and `resolved_at` to all such rows, including a row whose selection names neither team nor the draw. Such a row keeps `upcoming` and is written again by the next settlement.
- **`inserted` counts candidates, not new rows.** It counts every row that passes the EV filter, including rows the upsert ignored; see `Scan.RescanCountsAgain`.

=== FILE: batches.dfy ===
/** Splitting the event ids to settle into request-sized groups: the
    Express build's `chunk` and the Worker's stepping loop. */
module Batches {
  import opened Seqs

  /** `arr.slice(i, i + n)` for a non-negative start and length. */
  function Slice<T>(arr: seq<T>, i: nat, n: nat): (s: seq<T>)
    ensures i < |arr| ==> |s| == (if i + n <= |arr| then n else |arr| - i)
    ensures i >= |arr| ==> s == []
  {
    if i >= |arr| then [] else arr[i..if i + n <= |arr| then i + n else |arr|]
  }

  /** The slice holds the ids from `i` on, in order. */
  lemma SliceContents<T>(arr: seq<T>, i: nat, n: nat)
    ensures forall k :: 0 <= k < |Slice(arr, i, n)| ==> i + k < |arr| && Slice(arr, i, n)[k] == arr[i + k]
  {
    if i < |arr| {
      var j := if i + n <= |arr| then i + n else |arr|;
      var s := Slice(arr, i, n);
      assert s == arr[i..j];
      forall k | 0 <= k < |s|
        ensures i + k < |arr| && s[k] == arr[i + k]
      {
        assert arr[i..j][k] == arr[i + k];
      }
    } else {
      assert Slice(arr, i, n) == [];
    }
  }

  /** The Express build's
      `arr.reduce((acc, _, i) => i % n ? acc : acc.concat([arr.slice(i, i + n)]), [])`
      after visiting indices `0 .. k - 1`. With `n == 0`, `i % n` is `NaN`,
      which is falsy, so every index contributes an empty slice. */
  function ChunkUpTo<T>(arr: seq<T>, n: nat, k: nat): seq<seq<T>>
    requires k <= |arr|
  {
    if k == 0 then []
    else
      var acc := ChunkUpTo(arr, n, k - 1);
      var i := k - 1;
      if n != 0 && i % n != 0 then acc else acc + [Slice(arr, i, n)]
  }

  /** `chunk(arr, n)` */
  function Chunk<T>(arr: seq<T>, n: nat): seq<seq<T>>
  {
    ChunkUpTo(arr, n, |arr|)
  }

  /** The Worker's `for (let i = start; i < ids.length; i += n)` loop, each
      step taking `ids.slice(i, i + n)`. */
  function Batches<T>(arr: seq<T>, n: nat, start: nat): seq<seq<T>>
    requires n >= 1
    decreases |arr| - start
  {
    if start >= |arr| then [] else [Slice(arr, start, n)] + Batches(arr, n, start + n)
  }

  lemma FlattenCons<T(!new)>(x: seq<T>, xss: seq<seq<T>>)
    ensures Flatten([x] + xss) == x + Flatten(xss)
    decreases |xss|
  {
    if |xss| > 0 {
      var init := xss[..|xss| - 1];
      FlattenCons(x, init);
      assert ([x] + xss)[..|xss|] == [x] + init;
    }
  }

  /** The batches cover the ids from `start` on exactly, in order: every id
      is settled once. */
  lemma {:induction false} BatchesFlatten<T(!new)>(arr: seq<T>, n: nat, start: nat)
    requires n >= 1 && start <= |arr|
    ensures Flatten(Batches(arr, n, start)) == arr[start..]
    decreases |arr| - start
  {
    if start < |arr| {
      var s := Slice(arr, start, n);
      FlattenCons(s, Batches(arr, n, start + n));
      if start + n <= |arr| {
        BatchesFlatten(arr, n, start + n);
        SliceThenRest(arr, start, n);
      } else {
        assert s == arr[start..];
        assert Batches(arr, n, start + n) == [];
      }
    }
  }

  /** A full slice followed by what comes after it is the whole suffix. */
  lemma SliceThenRest<T>(arr: seq<T>, start: nat, n: nat)
    requires start + n <= |arr|
    ensures arr[start..] == Slice(arr, start, n) + arr[start + n..]
  {
    if start < |arr| {
      assert Slice(arr, start, n) == arr[start..start + n];
    }
  }

  /** Every batch is non-empty and holds at most `n` ids; all but the last
      hold exactly `n`. */
  predicate Partitioned<T>(bs: seq<seq<T>>, n: nat) {
    && (forall j :: 0 <= j < |bs| ==> 1 <= |bs[j]| <= n)
    && (forall j :: 0 <= j < |bs| - 1 ==> |bs[j]| == n)
  }

  lemma {:induction false} BatchesSizes<T>(arr: seq<T>, n: nat, start: nat)
    requires n >= 1
    ensures Partitioned(Batches(arr, n, start), n)
    decreases |arr| - start
  {
    if start < |arr| {
      BatchesSizes(arr, n, start + n);
      var bs := Batches(arr, n, start);
      var rest := Batches(arr, n, start + n);
      assert forall j :: 0 < j < |bs| ==> bs[j] == rest[j - 1];
      if |rest| > 0 {
        assert start + n < |arr|;
      }
    }
  }

  /** The number of batch starts (multiples of `n`) below `k`. */
  function Starts(k: nat, n: nat): (c: nat)
    requires n >= 1
    ensures k == 0 <==> c == 0
    ensures c > 0 ==> (c - 1) * n < k <= c * n
  {
    if k == 0 then 0
    else
      var c := Starts(k - 1, n);
      if (k - 1) % n == 0 then
        StartIsMultiple(k - 1, n, c);
        c + 1
      else
        NotMultipleBetween(k - 1, n, c);
        c
  }

  lemma MulMonotone(a: int, b: int, n: int)
    requires n >= 1 && a * n < b * n
    ensures a < b
  {
  }

  lemma MulAtLeast(x: int, n: int)
    requires x >= 1 && n >= 1
    ensures x * n >= n
  {
    assert x * n - n == (x - 1) * n;
  }

  /** A multiple of `n` leaves no remainder. */
  lemma ModOfMultiple(c: int, n: int)
    requires n >= 1
    ensures (c * n) % n == 0
  {
    var q, r := (c * n) / n, (c * n) % n;
    assert c * n == q * n + r && 0 <= r < n;
    assert (c - q) * n == r;
    if c - q >= 1 {
      MulAtLeast(c - q, n);
    } else if c - q <= -1 {
      MulAtLeast(q - c, n);
    }
  }

  /** A multiple of `n` lying in `((c - 1) * n, c * n]` is `c * n`. */
  lemma StartIsMultiple(i: nat, n: nat, c: nat)
    requires n >= 1 && i % n == 0
    requires i == 0 <==> c == 0
    requires c > 0 ==> (c - 1) * n < i <= c * n
    ensures i == c * n
  {
    var q := i / n;
    assert i == q * n;
    if c > 0 {
      MulMonotone(c - 1, q, n);
      assert (c + 1) * n == c * n + n;
      MulMonotone(q, c + 1, n);
    }
  }

  /** An index that is no multiple of `n` lies strictly below the next
      multiple. */
  lemma NotMultipleBetween(i: nat, n: nat, c: nat)
    requires n >= 1 && i % n != 0
    requires i == 0 <==> c == 0
    requires c > 0 ==> (c - 1) * n < i <= c * n
    ensures c > 0 && i + 1 <= c * n
  {
    ModOfMultiple(c, n);
  }

  /** After visiting indices below `k`, the reduce holds one slice per batch
      start below `k`. */
  lemma {:induction false} ChunkUpToStarts<T>(arr: seq<T>, n: nat, k: nat)
    requires n >= 1 && k <= |arr|
    ensures |ChunkUpTo(arr, n, k)| == Starts(k, n)
    ensures forall t :: 0 <= t < Starts(k, n) ==> ChunkUpTo(arr, n, k)[t] == Slice(arr, t * n, n)
  {
    if k > 0 {
      ChunkUpToStarts(arr, n, k - 1);
      if (k - 1) % n == 0 {
        ChunkUpToAtStart(arr, n, k);
      } else {
        assert Starts(k, n) == Starts(k - 1, n);
        assert ChunkUpTo(arr, n, k) == ChunkUpTo(arr, n, k - 1);
      }
    }
  }

  /** Visiting a batch start appends the slice that starts there. */
  lemma ChunkUpToAtStart<T>(arr: seq<T>, n: nat, k: nat)
    requires n >= 1 && 0 < k <= |arr| && (k - 1) % n == 0
    requires |ChunkUpTo(arr, n, k - 1)| == Starts(k - 1, n)
    requires forall t :: 0 <= t < Starts(k - 1, n) ==> ChunkUpTo(arr, n, k - 1)[t] == Slice(arr, t * n, n)
    ensures |ChunkUpTo(arr, n, k)| == Starts(k, n)
    ensures forall t :: 0 <= t < Starts(k, n) ==> ChunkUpTo(arr, n, k)[t] == Slice(arr, t * n, n)
  {
    var c := Starts(k - 1, n);
    var acc := ChunkUpTo(arr, n, k - 1);
    StartIsMultiple(k - 1, n, c);
    assert Starts(k, n) == c + 1;
    var slice := (t: nat) => Slice(arr, t * n, n);
    assert ChunkUpTo(arr, n, k) == acc + [slice(c)];
    AppendNext(acc, slice);
  }

  /** A sequence that lists `f(0), f(1), ...` keeps doing so when the next
      value is appended. */
  lemma AppendNext<U>(acc: seq<U>, f: nat -> U)
    requires forall t :: 0 <= t < |acc| ==> acc[t] == f(t)
    ensures forall t :: 0 <= t <= |acc| ==> (acc + [f(|acc|)])[t] == f(t)
  {
  }

  /** The loop from `start` yields, at step `t`, the slice starting
      `t * n` ids further on. */
  lemma {:induction false} BatchesAt<T>(arr: seq<T>, n: nat, start: nat, t: nat)
    requires n >= 1 && t < |Batches(arr, n, start)|
    ensures Batches(arr, n, start)[t] == Slice(arr, start + t * n, n)
    decreases t
  {
    assert start < |arr|;
    var rest := Batches(arr, n, start + n);
    assert Batches(arr, n, start) == [Slice(arr, start, n)] + rest;
    if t > 0 {
      assert Batches(arr, n, start)[t] == rest[t - 1];
      BatchesAt(arr, n, start + n, t - 1);
      var p := start + n + (t - 1) * n;
      assert rest[t - 1] == Slice(arr, p, n);
      StepStart(start, n, t);
      assert p == start + t * n;
    } else {
      assert t * n == 0;
    }
  }

  lemma StepStart(start: nat, n: nat, t: nat)
    requires t > 0
    ensures start + n + (t - 1) * n == start + t * n
  {
    var m := (t - 1) * n;
    assert m + n == t * n;
  }

  /** From the batch start `j * n`, the loop takes one step per remaining
      batch start. */
  lemma {:induction false} BatchesCount<T>(arr: seq<T>, n: nat, j: nat)
    requires n >= 1 && j <= Starts(|arr|, n)
    ensures |Batches(arr, n, j * n)| == Starts(|arr|, n) - j
    decreases Starts(|arr|, n) - j
  {
    var c := Starts(|arr|, n);
    if j < c {
      StartBelowLength(|arr|, n, j);
      BatchesCount(arr, n, j + 1);
      assert j * n + n == (j + 1) * n;
    } else {
      StartAtLength(|arr|, n, j);
    }
  }

  lemma StartBelowLength(len: nat, n: nat, j: nat)
    requires n >= 1 && j < Starts(len, n)
    ensures j * n < len
  {
    var c := Starts(len, n);
    MulLe(j, c - 1, n);
  }

  lemma MulLe(a: int, b: int, n: int)
    requires a <= b && n >= 1
    ensures a * n <= b * n
  {
    assert b * n - a * n == (b - a) * n;
  }

  lemma StartAtLength(len: nat, n: nat, j: nat)
    requires n >= 1 && j == Starts(len, n)
    ensures j * n >= len
  {
  }

  /** The Express `chunk` and the Worker's loop produce the same batches. */
  lemma ChunkIsBatches<T>(arr: seq<T>, n: nat)
    requires n >= 1
    ensures Chunk(arr, n) == Batches(arr, n, 0)
  {
    ChunkUpToStarts(arr, n, |arr|);
    BatchesCount(arr, n, 0);
    var cs := ChunkUpTo(arr, n, |arr|);
    var bs := Batches(arr, n, 0);
    assert |cs| == |bs|;
    forall t | 0 <= t < |bs|
      ensures cs[t] == bs[t]
    {
      BatchesAt(arr, n, 0, t);
      assert 0 + t * n == t * n;
    }
    assert cs == bs;
  }

  /** `chunk(arr, n)` for `n >= 1` partitions `arr`: the chunks concatenate
      back to it, each holds between 1 and `n` elements, and all but the
      last exactly `n`. */
  lemma ChunkPartitions<T(!new)>(arr: seq<T>, n: nat)
    requires n >= 1
    ensures Flatten(Chunk(arr, n)) == arr
    ensures Partitioned(Chunk(arr, n), n)
  {
    ChunkIsBatches(arr, n);
    BatchesFlatten(arr, n, 0);
    BatchesSizes(arr, n, 0);
  }

  /** With `n == 0` the reduce yields one empty chunk per element. */
  lemma {:induction false} ChunkZero<T>(arr: seq<T>, k: nat)
    requires k <= |arr|
    ensures ChunkUpTo(arr, 0, k) == seq(k, _ => [])
  {
    if k > 0 {
      ChunkZero(arr, k - 1);
    }
  }
}

=== FILE: bestprice.dfy ===
/** Best-price shopping: for every outcome of the universe, the highest price
    any bookmaker (sharp or soft) offers, and the bookmaker offering it. */
module BestPrice {
  import opened Wrappers
  import opened JsNum
  import opened Seqs
  import opened Feed

  /** The best price found so far for one outcome; `book` is `null` until a
      price has been recorded. */
  datatype Best = Best(name: string, odds: Num, book: Option<string>)

  /** `x || 0` on a number. */
  function OrZero(n: Num): Num
  {
    if Truthy(n) then n else Fin(0.0)
  }

  /** Whether the loop may record a price at all: the Worker build also
      demands `Number.isFinite(price)`, the Express build does not. */
  predicate Admits(finiteOnly: bool, p: Num) {
    !finiteOnly || p.Fin?
  }

  /** `allNames.map(n => ({ name: n, odds: 0, book: null }))` */
  function Initial(u: seq<string>): (bs: seq<Best>)
    ensures |bs| == |u| && forall i :: 0 <= i < |u| ==> bs[i] == Best(u[i], Fin(0.0), None)
    ensures forall i :: 0 <= i < |u| ==> bs[i].name == u[i] && bs[i].book.None? && !Truthy(bs[i].odds)
    ensures forall i, p: real :: 0 <= i < |u| && p > 0.0 ==> Gt(Fin(p), bs[i].odds)
  {
    seq(|u|, i requires 0 <= i < |u| => Best(u[i], Fin(0.0), None))
  }

  /** One iteration of the inner loop: record `o` if it names a universe
      outcome and strictly beats the price recorded for it. */
  function Step(u: seq<string>, bs: seq<Best>, o: Offer, finiteOnly: bool): seq<Best>
    requires |bs| == |u|
  {
    var idx := IndexOf(u, o.name);
    if idx >= 0 && Admits(finiteOnly, o.price) && Gt(o.price, OrZero(bs[idx].odds))
    then bs[idx := Best(o.name, o.price, Some(o.book))]
    else bs
  }

  /** The best-price loop over every offer of the event, in order. */
  function BestPrices(u: seq<string>, offers: seq<Offer>, finiteOnly: bool): (bs: seq<Best>)
    ensures |bs| == |u|
    ensures forall i :: 0 <= i < |u| ==> bs[i].name == u[i]
  {
    if |offers| == 0 then Initial(u)
    else Step(u, BestPrices(u, offers[..|offers| - 1], finiteOnly), offers[|offers| - 1], finiteOnly)
  }

  /** Offer `j` is a price for `name` that the loop may record. */
  predicate Candidate(offers: seq<Offer>, j: int, name: string, finiteOnly: bool) {
    0 <= j < |offers| && offers[j].name == name && Admits(finiteOnly, offers[j].price)
  }

  /** The best price of one outcome, as a reference definition: the same
      strict-improvement rule applied to that outcome's offers alone. Its
      contract is what "best price" means: at least every admitted price for
      the outcome, offered by the first bookmaker to offer it, or 0 with no
      bookmaker when no positive price was admitted. */
  function BestFor(name: string, offers: seq<Offer>, finiteOnly: bool): (b: (Num, Option<string>))
    ensures b.1.None? <==> b.0 == Fin(0.0)
    ensures b.0 == Fin(0.0) || Gt(b.0, Fin(0.0))
    ensures forall j :: Candidate(offers, j, name, finiteOnly) ==> !Gt(offers[j].price, b.0)
    ensures b.1.Some? ==>
      exists k ::
        && Candidate(offers, k, name, finiteOnly)
        && offers[k].price == b.0 && b.1 == Some(offers[k].book)
        && forall j :: 0 <= j < k && Candidate(offers, j, name, finiteOnly) ==> offers[j].price != b.0
  {
    if |offers| == 0 then (Fin(0.0), None)
    else
      var init := offers[..|offers| - 1];
      var o := offers[|offers| - 1];
      var prev := BestFor(name, init, finiteOnly);
      assert forall j :: Candidate(init, j, name, finiteOnly) <==> 0 <= j < |init| && Candidate(offers, j, name, finiteOnly);
      assert OrZero(prev.0) == prev.0;
      if o.name == name && Admits(finiteOnly, o.price) && Gt(o.price, prev.0) then
        BestForStep(prev.0, offers, name, finiteOnly);
        (o.price, Some(o.book))
      else
        prev
  }

  /** When the last offer strictly beats the best of the earlier ones, it
      beats or equals none of them from below. */
  lemma BestForStep(prev: Num, offers: seq<Offer>, name: string, finiteOnly: bool)
    requires |offers| > 0
    requires Gt(offers[|offers| - 1].price, prev)
    requires forall j :: 0 <= j < |offers| - 1 && Candidate(offers, j, name, finiteOnly) ==> !Gt(offers[j].price, prev)
    ensures forall j :: 0 <= j < |offers| - 1 && Candidate(offers, j, name, finiteOnly) ==>
      !Gt(offers[j].price, offers[|offers| - 1].price) && offers[j].price != offers[|offers| - 1].price
  {
    var x := offers[|offers| - 1].price;
    forall j | 0 <= j < |offers| - 1 && Candidate(offers, j, name, finiteOnly)
      ensures !Gt(offers[j].price, x) && offers[j].price != x
    {
      if Gt(offers[j].price, x) {
        GtTransitive(offers[j].price, x, prev);
      }
    }
  }

  /** The loop over all outcomes at once computes, for each outcome, exactly
      its reference best price: entries for different outcomes never
      interfere because the universe has no duplicates. */
  lemma {:induction false} BestPricesPerOutcome(u: seq<string>, offers: seq<Offer>, finiteOnly: bool, i: int)
    requires NoDups(u) && 0 <= i < |u|
    ensures var b := BestFor(u[i], offers, finiteOnly);
      BestPrices(u, offers, finiteOnly)[i] == Best(u[i], b.0, b.1)
  {
    if |offers| > 0 {
      var init := offers[..|offers| - 1];
      var o := offers[|offers| - 1];
      BestPricesPerOutcome(u, init, finiteOnly, i);
      var prev := BestFor(u[i], init, finiteOnly);
      assert OrZero(prev.0) == prev.0;
      var idx := IndexOf(u, o.name);
      if o.name == u[i] {
        IndexOfNoDups(u, i);
      }
    }
  }

  /** Offers whose outcome is outside the universe. */
  function InUniverse(u: seq<string>, offers: seq<Offer>): (r: seq<Offer>)
    ensures forall o :: o in r <==> o in offers && o.name in u
  {
    if |offers| == 0 then []
    else
      var init := offers[..|offers| - 1];
      var o := offers[|offers| - 1];
      assert offers == init + [o];
      InUniverse(u, init) + (if o.name in u then [o] else [])
  }

  /** Offers for outcomes outside the universe never change the best prices:
      soft-only outcome names are ignored. */
  lemma {:induction false} OutsideUniverseIgnored(u: seq<string>, offers: seq<Offer>, finiteOnly: bool)
    ensures BestPrices(u, offers, finiteOnly) == BestPrices(u, InUniverse(u, offers), finiteOnly)
  {
    if |offers| > 0 {
      var init := offers[..|offers| - 1];
      var o := offers[|offers| - 1];
      OutsideUniverseIgnored(u, init, finiteOnly);
      var r := InUniverse(u, offers);
      var ri := InUniverse(u, init);
      var bs := BestPrices(u, init, finiteOnly);
      if o.name in u {
        assert r == ri + [o];
        assert r[..|r| - 1] == ri;
        assert BestPrices(u, r, finiteOnly) == Step(u, BestPrices(u, ri, finiteOnly), o, finiteOnly);
      } else {
        assert r == ri;
        assert IndexOf(u, o.name) == -1;
        assert Step(u, bs, o, finiteOnly) == bs;
      }
    }
  }
}

=== FILE: consensus.dfy ===
/** Fair probabilities from the sharp bookmakers: each usable sharp quote
    becomes a vig-free probability vector, and every outcome's fair
    probability is the mean over the vectors that quote it. */
module Consensus {
  import opened Wrappers
  import opened JsNum
  import opened Seqs
  import opened Text
  import opened Sharp
  import opened Vig
  import opened Feed

  /** The two entry points carry slightly different copies of the pipeline:
      the Worker build and the older Express build. */
  datatype Build = Worker | Legacy

  function Hints(b: Build): seq<string>
  {
    if b.Worker? then WorkerHints else LegacyHints
  }

  /** One sharp bookmaker's vig-free view of the event: `probs[i]` is the
      probability of outcome `names[i]`. */
  datatype SharpVec = SharpVec(names: seq<string>, probs: seq<real>)

  predicate Usable(v: SharpVec) {
    |v.names| == |v.probs| && IsDistribution(v.probs)
  }

  predicate AllUsable(vs: seq<SharpVec>) {
    forall k :: 0 <= k < |vs| ==> Usable(vs[k])
  }

  /** An outcome's name when it is present (truthy). */
  function NameOf(q: Quote): Option<string>
  {
    if q.name != "" then Some(q.name) else None
  }

  /** An outcome's price when it is a finite number. */
  function PriceOf(q: Quote): Option<real>
  {
    if q.price.Fin? then Some(q.price.v) else None
  }

  /** `outcomes.map(o => o?.name).filter(Boolean)` */
  function PresentNames(qs: seq<Quote>): (ns: seq<string>)
    ensures |ns| <= |qs|
    ensures forall i :: 0 <= i < |ns| ==> ns[i] != ""
    ensures (forall i :: 0 <= i < |qs| ==> qs[i].name != "") ==> ns == seq(|qs|, i requires 0 <= i < |qs| => qs[i].name)
  {
    if |qs| == 0 then []
    else
      var init := qs[..|qs| - 1];
      assert forall i :: 0 <= i < |init| ==> init[i] == qs[i];
      PresentNames(init) + (if qs[|qs| - 1].name != "" then [qs[|qs| - 1].name] else [])
  }

  /** The present names are the quotes' names, in order, with the absent ones
      dropped: each named quote's name sits at its rank among the named. */
  lemma {:induction false} PresentNamesFiltered(qs: seq<Quote>)
    ensures FilterMapped(qs, NameOf, PresentNames(qs))
  {
    if |qs| > 0 {
      var init := qs[..|qs| - 1];
      PresentNamesFiltered(init);
      FilterMappedSnoc(init, NameOf, PresentNames(init), qs[|qs| - 1]);
      assert init + [qs[|qs| - 1]] == qs;
    }
  }

  /** `outcomes.map(o => Number(o?.price)).filter(Number.isFinite)` */
  function FinitePrices(qs: seq<Quote>): (ps: seq<real>)
    ensures |ps| <= |qs|
    ensures (forall i :: 0 <= i < |qs| ==> qs[i].price.Fin?) ==> ps == seq(|qs|, i requires 0 <= i < |qs| => qs[i].price.v)
  {
    if |qs| == 0 then []
    else
      var init := qs[..|qs| - 1];
      assert forall i :: 0 <= i < |init| ==> init[i] == qs[i];
      FinitePrices(init) + (if qs[|qs| - 1].price.Fin? then [qs[|qs| - 1].price.v] else [])
  }

  /** The finite prices are the quotes' prices, in order, with the non-finite
      ones dropped. */
  lemma {:induction false} FinitePricesFiltered(qs: seq<Quote>)
    ensures FilterMapped(qs, PriceOf, FinitePrices(qs))
  {
    if |qs| > 0 {
      var init := qs[..|qs| - 1];
      FinitePricesFiltered(init);
      FilterMappedSnoc(init, PriceOf, FinitePrices(init), qs[|qs| - 1]);
      assert init + [qs[|qs| - 1]] == qs;
    }
  }

  /** The head-to-head quote of a bookmaker, as the sharp-vector step reads
      it: present, with at least one outcome. */
  predicate HasOutcomes(bk: Bookmaker) {
    FindH2h(bk.markets).Some? && |FindH2h(bk.markets).value.outcomes| > 0
  }

  /** The Worker build's vector from one head-to-head quote: names and finite
      prices are filtered separately and must come out equally long. */
  function WorkerQuoteVector(qs: seq<Quote>): (r: Option<SharpVec>)
    ensures r.Some? <==>
      && |PresentNames(qs)| == |FinitePrices(qs)| > 0
      && exists i :: 0 <= i < |FinitePrices(qs)| && FinitePrices(qs)[i] > 1.0
    ensures r.Some? ==> Usable(r.value) && |r.value.names| > 0 && r.value.names == PresentNames(qs)
    ensures r.Some? ==> RemoveVigProportional(FinitePrices(qs)) == Some(r.value.probs)
  {
    var names := PresentNames(qs);
    var prices := FinitePrices(qs);
    if |prices| != |names| || |prices| == 0 then None
    else match RemoveVigProportional(prices)
      case None => None
      case Some(probs) => Some(SharpVec(names, probs))
  }

  /** The Worker build's sharp vector of one bookmaker, or None when the
      bookmaker is soft or its quote is unusable. */
  function WorkerVector(bk: Bookmaker): (r: Option<SharpVec>)
    ensures r.Some? <==>
      && IsSharp(WorkerHints, bk.key, bk.title)
      && HasOutcomes(bk)
      && WorkerQuoteVector(FindH2h(bk.markets).value.outcomes).Some?
    ensures r.Some? ==> r == WorkerQuoteVector(FindH2h(bk.markets).value.outcomes)
  {
    if !IsSharp(WorkerHints, bk.key, bk.title) then None
    else match FindH2h(bk.markets)
      case None => None
      case Some(m) =>
        if |m.outcomes| == 0 then None
        else WorkerQuoteVector(m.outcomes)
  }

  function QuoteNames(qs: seq<Quote>): (ns: seq<string>)
    ensures |ns| == |qs| && forall i :: 0 <= i < |qs| ==> ns[i] == qs[i].name
  {
    seq(|qs|, i requires 0 <= i < |qs| => qs[i].name)
  }

  function QuotePrices(qs: seq<Quote>): (ps: seq<Num>)
    ensures |ps| == |qs| && forall i :: 0 <= i < |qs| ==> ps[i] == qs[i].price
  {
    seq(|qs|, i requires 0 <= i < |qs| => qs[i].price)
  }

  /** The Express build's vector from one head-to-head quote: names are not
      filtered, and only an empty quote or a NaN price makes it unusable. */
  function LegacyQuoteVector(qs: seq<Quote>): (r: Option<SharpVec>)
    ensures r.Some? <==>
      && (forall i :: 0 <= i < |qs| ==> !qs[i].price.NaN?)
      && exists i :: 0 <= i < |qs| && qs[i].price.Fin? && qs[i].price.v > 1.0
    ensures r.Some? ==> Usable(r.value) && |r.value.names| > 0 && r.value.names == QuoteNames(qs)
    ensures r.Some? ==>
      && (forall i :: 0 <= i < |qs| ==> !qs[i].price.NaN?)
      && RemoveVigNum(QuotePrices(qs)) == Some(r.value.probs)
  {
    var names := QuoteNames(qs);
    var prices := QuotePrices(qs);
    if |prices| == 0 || exists i :: 0 <= i < |prices| && prices[i].NaN? then None
    else match RemoveVigNum(prices)
      case None => None
      case Some(probs) => Some(SharpVec(names, probs))
  }

  /** The Express build's sharp vector of one bookmaker. */
  function LegacyVector(bk: Bookmaker): (r: Option<SharpVec>)
    ensures r.Some? <==>
      && IsSharp(LegacyHints, bk.key, bk.title)
      && FindH2h(bk.markets).Some?
      && LegacyQuoteVector(FindH2h(bk.markets).value.outcomes).Some?
    ensures r.Some? ==> r == LegacyQuoteVector(FindH2h(bk.markets).value.outcomes)
  {
    if !IsSharp(LegacyHints, bk.key, bk.title) then None
    else match FindH2h(bk.markets)
      case None => None
      case Some(m) => LegacyQuoteVector(m.outcomes)
  }

  function Vector(b: Build, bk: Bookmaker): Option<SharpVec>
  {
    if b.Worker? then WorkerVector(bk) else LegacyVector(bk)
  }

  /** A bookmaker's sharp vector, as a partial map over bookmakers. */
  function VectorOf(b: Build): Bookmaker -> Option<SharpVec>
  {
    bk => Vector(b, bk)
  }

  /** The title (`t || k`) of a bookmaker that yields a sharp vector. */
  function TitleOf(b: Build): Bookmaker -> Option<string>
  {
    bk => if Vector(b, bk).Some? then Some(Label(bk)) else None
  }

  /** The sharp vectors of an event together with the titles of the
      bookmakers that produced them (`t || k`), in bookmaker order. */
  function SharpVectors(b: Build, bks: seq<Bookmaker>): (r: (seq<SharpVec>, seq<string>))
    ensures |r.0| == |r.1| <= |bks|
    ensures AllUsable(r.0)
  {
    if |bks| == 0 then ([], [])
    else
      var init := bks[..|bks| - 1];
      var last := bks[|bks| - 1];
      var (vs, ts) := SharpVectors(b, init);
      assert forall j :: 0 <= j < |init| ==> init[j] == bks[j];
      match Vector(b, last)
      case None => (vs, ts)
      case Some(v) => (vs + [v], ts + [Label(last)])
  }

  /** The vectors are those of the bookmakers that yield one, in bookmaker
      order, and the titles are those same bookmakers' titles. */
  lemma {:induction false} SharpVectorsFiltered(b: Build, bks: seq<Bookmaker>)
    ensures FilterMapped(bks, VectorOf(b), SharpVectors(b, bks).0)
    ensures FilterMapped(bks, TitleOf(b), SharpVectors(b, bks).1)
  {
    SharpVectorsFilteredVecs(b, bks);
    SharpVectorsFilteredTitles(b, bks);
  }

  lemma {:induction false} SharpVectorsFilteredVecs(b: Build, bks: seq<Bookmaker>)
    ensures FilterMapped(bks, VectorOf(b), SharpVectors(b, bks).0)
  {
    if |bks| > 0 {
      var init := bks[..|bks| - 1];
      var last := bks[|bks| - 1];
      SharpVectorsFilteredVecs(b, init);
      assert VectorOf(b)(last) == Vector(b, last);
      FilterMappedSnoc(init, VectorOf(b), SharpVectors(b, init).0, last);
      assert init + [last] == bks;
      assert SharpVectors(b, bks).0 ==
        SharpVectors(b, init).0 + (if Vector(b, last).Some? then [Vector(b, last).value] else []);
    }
  }

  lemma {:induction false} SharpVectorsFilteredTitles(b: Build, bks: seq<Bookmaker>)
    ensures FilterMapped(bks, TitleOf(b), SharpVectors(b, bks).1)
  {
    if |bks| > 0 {
      var init := bks[..|bks| - 1];
      var last := bks[|bks| - 1];
      SharpVectorsFilteredTitles(b, init);
      FilterMappedSnoc(init, TitleOf(b), SharpVectors(b, init).1, last);
      assert init + [last] == bks;
    }
  }

  /** An event yields no vector exactly when none of its bookmakers does. */
  lemma {:induction false} NoVectors(b: Build, bks: seq<Bookmaker>)
    ensures |SharpVectors(b, bks).0| == 0 <==> forall j :: 0 <= j < |bks| ==> Vector(b, bks[j]).None?
  {
    if |bks| > 0 {
      var init := bks[..|bks| - 1];
      NoVectors(b, init);
      assert forall j :: 0 <= j < |init| ==> init[j] == bks[j];
      assert bks == init + [bks[|bks| - 1]];
    }
  }

  function AllNames(vs: seq<SharpVec>): seq<seq<string>>
  {
    seq(|vs|, k requires 0 <= k < |vs| => vs[k].names)
  }

  /** `Array.from(new Set(sharpVecs.flatMap(v => v.names)))`: every outcome
      name some sharp vector quotes, once, in first-seen order. */
  function Universe(vs: seq<SharpVec>): (u: seq<string>)
    ensures NoDups(u)
    ensures forall n :: n in u <==> exists k :: 0 <= k < |vs| && n in vs[k].names
  {
    var names := AllNames(vs);
    assert forall k :: 0 <= k < |vs| ==> names[k] == vs[k].names;
    Dedupe(Flatten(names))
  }

  /** The universe lists the names in the order the vectors first quote
      them: an earlier name in the universe first occurs earlier in the
      vectors' names read one vector after another. */
  lemma UniverseOrder(vs: seq<SharpVec>)
    ensures forall i, j :: 0 <= i < j < |Universe(vs)| ==>
      IndexOf(Flatten(AllNames(vs)), Universe(vs)[i]) < IndexOf(Flatten(AllNames(vs)), Universe(vs)[j])
  {
    DedupeOrder(Flatten(AllNames(vs)));
  }

  /** The probability a vector quotes for `name`: the entry at the name's
      first position, when the vector has the name. */
  function QuoteOf(name: string): SharpVec -> Option<real>
  {
    (v: SharpVec) => var i := IndexOf(v.names, name); if 0 <= i < |v.probs| then Some(v.probs[i]) else None
  }

  /** The probabilities the sharp vectors quote for `name`, each vector
      contributing the entry at the name's first position. */
  function Quoted(name: string, vs: seq<SharpVec>): (vals: seq<real>)
    requires forall k :: 0 <= k < |vs| ==> |vs[k].names| == |vs[k].probs|
    ensures |vals| <= |vs|
    ensures |vals| == 0 <==> forall k :: 0 <= k < |vs| ==> name !in vs[k].names
    ensures AllUsable(vs) ==> AllUnit(vals)
  {
    if |vs| == 0 then []
    else
      var init := vs[..|vs| - 1];
      var v := vs[|vs| - 1];
      assert forall k :: 0 <= k < |init| ==> init[k] == vs[k];
      var i := IndexOf(v.names, name);
      assert (forall k :: 0 <= k < |vs| ==> name !in vs[k].names) <==>
        (forall k :: 0 <= k < |init| ==> name !in init[k].names) && name !in v.names;
      assert AllUsable(vs) ==> AllUsable(init) && Usable(v);
      Quoted(name, init) + (if i >= 0 then [v.probs[i]] else [])
  }

  /** Each vector quoting the name contributes exactly one value, the
      probability at the name's position in that vector, in vector
      order. */
  lemma {:induction false} QuotedPerVector(name: string, vs: seq<SharpVec>)
    requires forall k :: 0 <= k < |vs| ==> |vs[k].names| == |vs[k].probs|
    ensures FilterMapped(vs, QuoteOf(name), Quoted(name, vs))
  {
    if |vs| > 0 {
      var init := vs[..|vs| - 1];
      var v := vs[|vs| - 1];
      QuotedPerVector(name, init);
      QuotedSnoc(name, vs);
      var i := IndexOf(v.names, name);
      assert QuoteOf(name)(v) == if i >= 0 then Some(v.probs[i]) else None;
      FilterMappedSnoc(init, QuoteOf(name), Quoted(name, init), v);
      assert init + [v] == vs;
    }
  }

  /** `vals.length ? sum / vals.length : 0` */
  function Mean(vals: seq<real>): (m: real)
    ensures AllUnit(vals) ==> 0.0 <= m <= 1.0
    ensures |vals| == 0 ==> m == 0.0
    ensures |vals| > 0 ==> m * |vals| as real == Sum(vals)
  {
    if |vals| == 0 then 0.0
    else
      MeanBounds(vals);
      Sum(vals) / |vals| as real
  }

  lemma MeanSingleton(x: real)
    ensures Mean([x]) == x
  {
    SumSingleton(x);
  }

  lemma MeanPair(x: real, y: real)
    ensures Mean([x, y]) * 2.0 == x + y
  {
    SumPair(x, y);
  }

  lemma MeanBounds(vals: seq<real>)
    requires |vals| > 0
    ensures AllUnit(vals) ==> 0.0 <= Sum(vals) / |vals| as real <= 1.0
  {
    if AllUnit(vals) {
      SumAtMostLength(vals);
      DivUnit(Sum(vals), |vals| as real);
    }
  }

  /** The consensus fair probability of every universe outcome. */
  function FairProbs(u: seq<string>, vs: seq<SharpVec>): (fair: seq<real>)
    requires forall k :: 0 <= k < |vs| ==> |vs[k].names| == |vs[k].probs|
    ensures |fair| == |u|
    ensures forall i :: 0 <= i < |u| ==> fair[i] == Mean(Quoted(u[i], vs))
    ensures AllUsable(vs) ==> AllUnit(fair)
    ensures forall i :: 0 <= i < |u| && (forall k :: 0 <= k < |vs| ==> u[i] !in vs[k].names) ==> fair[i] == 0.0
  {
    seq(|u|, i requires 0 <= i < |u| => Mean(Quoted(u[i], vs)))
  }

  /** With well-formed outcomes (every name present, every price finite) the
      Worker vector pairs each name with its own outcome's price. */
  lemma WorkerVectorAligned(qs: seq<Quote>)
    requires forall i :: 0 <= i < |qs| ==> qs[i].name != "" && qs[i].price.Fin?
    requires exists i :: 0 <= i < |qs| && qs[i].price.v > 1.0
    ensures var prices := seq(|qs|, i requires 0 <= i < |qs| => qs[i].price.v);
      && RemoveVigProportional(prices).Some?
      && WorkerQuoteVector(qs) == Some(SharpVec(QuoteNames(qs), RemoveVigProportional(prices).value))
  {
    var prices := seq(|qs|, i requires 0 <= i < |qs| => qs[i].price.v);
    var names := seq(|qs|, i requires 0 <= i < |qs| => qs[i].name);
    assert PresentNames(qs) == names;
    assert names == QuoteNames(qs);
    assert FinitePrices(qs) == prices;
    var k :| 0 <= k < |qs| && qs[k].price.v > 1.0;
    assert prices[k] > 1.0;
  }

  /** Filtering names and prices separately can pair a name with another
      outcome's price: here "A" has a NaN price and the nameless outcome's
      price 3.0 is attributed to "A". */
  lemma WorkerVectorMisaligned()
    ensures WorkerQuoteVector([Quote("A", NaN), Quote("", Fin(3.0)), Quote("B", Fin(1.5))])
         == Some(SharpVec(["A", "B"], [1.0 / 3.0, 2.0 / 3.0]))
  {
    var qs := [Quote("A", NaN), Quote("", Fin(3.0)), Quote("B", Fin(1.5))];
    assert qs[..2] == [Quote("A", NaN), Quote("", Fin(3.0))];
    assert qs[..2][..1] == [Quote("A", NaN)];
    assert PresentNames(qs) == ["A", "B"];
    assert FinitePrices(qs) == [3.0, 1.5];
    var ps := Implied([3.0, 1.5]);
    assert ps == [1.0 / 3.0, 2.0 / 3.0];
    SumPair(1.0 / 3.0, 2.0 / 3.0);
    assert Scale(ps, 1.0) == [1.0 / 3.0, 2.0 / 3.0];
  }

  /** Every vector quotes exactly the outcome list `names`. */
  predicate SharesNames(vs: seq<SharpVec>, names: seq<string>) {
    forall k :: 0 <= k < |vs| ==> vs[k].names == names
  }

  function ProbRows(vs: seq<SharpVec>): (rows: seq<seq<real>>)
    ensures |rows| == |vs| && forall k :: 0 <= k < |vs| ==> rows[k] == vs[k].probs
  {
    seq(|vs|, k requires 0 <= k < |vs| => vs[k].probs)
  }

  lemma {:induction false} SharedFlattenDedupe(vs: seq<SharpVec>, names: seq<string>)
    requires |vs| > 0 && SharesNames(vs, names) && NoDups(names)
    ensures Dedupe(Flatten(AllNames(vs))) == names
  {
    var init := vs[..|vs| - 1];
    assert AllNames(vs)[..|vs| - 1] == AllNames(init);
    assert Flatten(AllNames(vs)) == Flatten(AllNames(init)) + names;
    if |init| == 0 {
      assert Flatten(AllNames(init)) == [];
      assert Flatten(AllNames(vs)) == names;
      DedupeNoDups(names);
    } else {
      SharedFlattenDedupe(init, names);
      assert AllNames(init)[0] == names;
      DedupeSeenSuffix(Flatten(AllNames(init)), names);
    }
  }

  /** When every vector quotes the same distinct outcomes, the universe is
      that outcome list. */
  lemma SharedUniverse(vs: seq<SharpVec>, names: seq<string>)
    requires |vs| > 0 && SharesNames(vs, names) && NoDups(names)
    ensures Universe(vs) == names
  {
    SharedFlattenDedupe(vs, names);
  }

  /** When every vector quotes the same distinct outcomes, the values quoted
      for outcome `i` are column `i` of the probability matrix. */
  lemma SharedQuoted(vs: seq<SharpVec>, names: seq<string>, i: nat)
    requires SharesNames(vs, names) && NoDups(names) && i < |names|
    requires forall k :: 0 <= k < |vs| ==> |vs[k].probs| == |names|
    ensures Quoted(names[i], vs) == Column(ProbRows(vs), i)
  {
    IndexOfNoDups(names, i);
    QuotedByAll(names[i], vs);
  }

  /** When every vector quotes the name, Quoted holds one value per vector:
      that vector's entry at the name's first position. */
  lemma QuotedByAll(name: string, vs: seq<SharpVec>)
    requires forall k :: 0 <= k < |vs| ==> |vs[k].names| == |vs[k].probs| && name in vs[k].names
    ensures |Quoted(name, vs)| == |vs|
    ensures forall k :: 0 <= k < |vs| ==> Quoted(name, vs)[k] == vs[k].probs[IndexOf(vs[k].names, name)]
  {
    QuotedPerVector(name, vs);
    FilterMappedAll(vs, QuoteOf(name), Quoted(name, vs));
  }

  /** Quoted over a non-empty list is Quoted over all but the last vector,
      followed by the last vector's entry for the name when it has one. */
  lemma QuotedSnoc(name: string, vs: seq<SharpVec>)
    requires |vs| > 0 && forall k :: 0 <= k < |vs| ==> |vs[k].names| == |vs[k].probs|
    ensures var v := vs[|vs| - 1]; var i := IndexOf(v.names, name);
      Quoted(name, vs) == Quoted(name, vs[..|vs| - 1]) + (if i >= 0 then [v.probs[i]] else [])
  {
  }

  lemma SharedFairIsColumnMean(vs: seq<SharpVec>, names: seq<string>)
    requires |vs| > 0 && AllUsable(vs) && SharesNames(vs, names) && NoDups(names)
    ensures FairProbs(names, vs) == Scale(ColumnSums(ProbRows(vs), |names|), |vs| as real)
  {
    forall i | 0 <= i < |names|
      ensures FairProbs(names, vs)[i] == Scale(ColumnSums(ProbRows(vs), |names|), |vs| as real)[i]
    {
      SharedFairEntry(vs, names, i);
    }
  }

  /** One entry of `SharedFairIsColumnMean`. */
  lemma SharedFairEntry(vs: seq<SharpVec>, names: seq<string>, i: nat)
    requires |vs| > 0 && AllUsable(vs) && SharesNames(vs, names) && NoDups(names) && i < |names|
    ensures FairProbs(names, vs)[i] == Scale(ColumnSums(ProbRows(vs), |names|), |vs| as real)[i]
  {
    var n := |vs|;
    var c := Column(ProbRows(vs), i);
    var y := Scale(ColumnSums(ProbRows(vs), |names|), n as real)[i];
    assert y * (n as real) == Sum(c);
    SharedFairAt(vs, names, i);
    MeanFromSum(c, n, y);
  }

  /** With shared outcomes, outcome `i`'s fair probability is the mean of
      column `i`. */
  lemma SharedFairAt(vs: seq<SharpVec>, names: seq<string>, i: nat)
    requires |vs| > 0 && AllUsable(vs) && SharesNames(vs, names) && NoDups(names) && i < |names|
    ensures FairProbs(names, vs)[i] == Mean(Column(ProbRows(vs), i))
  {
    SharedQuoted(vs, names, i);
  }

  /** The mean is the one value that, times the count, gives the sum. */
  lemma MeanFromSum(vals: seq<real>, n: nat, y: real)
    requires |vals| == n > 0 && y * (n as real) == Sum(vals)
    ensures Mean(vals) == y
  {
    var count := n as real;
    assert Mean(vals) * count == Sum(vals);
    CancelFactor(Mean(vals), y, count);
  }

  lemma CancelFactor(x: real, y: real, m: real)
    requires m != 0.0 && x * m == y * m
    ensures x == y
  {
    assert (x - y) * m == 0.0;
  }

  /** When every sharp vector quotes the same outcomes, the consensus is
      itself a probability vector: the fair probabilities sum to 1. */
  lemma SharedConsensusIsDistribution(vs: seq<SharpVec>, names: seq<string>)
    requires |vs| > 0 && AllUsable(vs) && SharesNames(vs, names) && NoDups(names)
    ensures Universe(vs) == names
    ensures IsDistribution(FairProbs(names, vs))
  {
    SharedUniverse(vs, names);
    var n := |names|;
    var m := |vs| as real;
    var rows := ProbRows(vs);
    var cols := ColumnSums(rows, n);
    SharedFairIsColumnMean(vs, names);
    SumByColumnsOrRows(rows, n);
    assert forall k :: 0 <= k < |vs| ==> RowSums(rows)[k] == 1.0;
    SumOfOnes(RowSums(rows));
    assert |RowSums(rows)| == |vs|;
    ScaleByOwnSum(cols, m);
  }

  lemma ScaleByOwnSum(xs: seq<real>, m: real)
    requires m > 0.0 && Sum(xs) == m
    ensures Sum(Scale(xs, m)) == 1.0
  {
    SumScale(xs, m);
    UnitFactor(Sum(Scale(xs, m)), m);
  }

  lemma UnitFactor(x: real, m: real)
    requires m > 0.0 && x * m == m
    ensures x == 1.0
  {
    assert (x - 1.0) * m == 0.0;
  }

  /** With a single sharp vector whose names are distinct, the universe is
      that vector's names and the fair probabilities are its own
      probabilities. */
  lemma SingleVectorConsensus(v: SharpVec)
    requires Usable(v) && NoDups(v.names)
    ensures Universe([v]) == v.names
    ensures FairProbs(v.names, [v]) == v.probs
  {
    SharedUniverse([v], v.names);
    SingleVectorFair(v);
  }

  lemma SingleVectorFair(v: SharpVec)
    requires Usable(v) && NoDups(v.names)
    ensures FairProbs(v.names, [v]) == v.probs
  {
    var fair := FairProbs(v.names, [v]);
    forall i | 0 <= i < |v.names|
      ensures fair[i] == v.probs[i]
    {
      SingleQuoted(v, i);
    }
  }

  lemma SingleQuoted(v: SharpVec, i: nat)
    requires Usable(v) && NoDups(v.names) && i < |v.names|
    ensures Mean(Quoted(v.names[i], [v])) == v.probs[i]
  {
    SharedQuoted([v], v.names, i);
    assert Column(ProbRows([v]), i) == [v.probs[i]];
    MeanSingleton(v.probs[i]);
  }

  /** With two sharp vectors over the same distinct outcomes, each fair
      probability is the average of the two quoted probabilities. */
  lemma PairConsensus(v1: SharpVec, v2: SharpVec, names: seq<string>)
    requires Usable(v1) && Usable(v2) && v1.names == names && v2.names == names && NoDups(names)
    ensures Universe([v1, v2]) == names
    ensures forall i :: 0 <= i < |names| ==> FairProbs(names, [v1, v2])[i] * 2.0 == v1.probs[i] + v2.probs[i]
  {
    var vs := [v1, v2];
    SharedUniverse(vs, names);
    forall i | 0 <= i < |names|
      ensures FairProbs(names, vs)[i] * 2.0 == v1.probs[i] + v2.probs[i]
    {
      SharedQuoted(vs, names, i);
      assert Column(ProbRows(vs), i) == [v1.probs[i], v2.probs[i]];
      MeanPair(v1.probs[i], v2.probs[i]);
    }
  }

  lemma TwoOutcomeUsable(p: real)
    requires 0.0 <= p <= 1.0
    ensures Usable(SharpVec(["A", "B"], [p, 1.0 - p]))
  {
    SumPair(p, 1.0 - p);
  }

  lemma TwoNames()
    ensures NoDups(["A", "B"])
  {
  }

  /** The example's two vectors quote 0.60 and 0.50 for "A", 0.40 and 0.50
      for "B". */
  lemma TwoVectorQuoted()
    ensures var vs := [SharpVec(["A", "B"], [0.6, 0.4]), SharpVec(["A", "B"], [0.5, 0.5])];
      Quoted("A", vs) == [0.6, 0.5] && Quoted("B", vs) == [0.4, 0.5]
  {
    var names := ["A", "B"];
    var vs := [SharpVec(names, [0.6, 0.4]), SharpVec(names, [0.5, 0.5])];
    TwoNames();
    SharedQuoted(vs, names, 0);
    SharedQuoted(vs, names, 1);
    assert Column(ProbRows(vs), 0) == [0.6, 0.5];
    assert Column(ProbRows(vs), 1) == [0.4, 0.5];
  }

  /** The example's universe is its vectors' common outcome list. */
  lemma TwoVectorUniverse()
    ensures var vs := [SharpVec(["A", "B"], [0.6, 0.4]), SharpVec(["A", "B"], [0.5, 0.5])];
      Universe(vs) == ["A", "B"]
  {
    var names := ["A", "B"];
    var vs := [SharpVec(names, [0.6, 0.4]), SharpVec(names, [0.5, 0.5])];
    TwoOutcomeUsable(0.6);
    TwoOutcomeUsable(0.5);
    TwoNames();
    SharedUniverse(vs, names);
  }

  /** Over the example's outcome list, the fair probabilities are the
      outcome-wise means of the two vectors. */
  lemma TwoVectorFair()
    ensures var vs := [SharpVec(["A", "B"], [0.6, 0.4]), SharpVec(["A", "B"], [0.5, 0.5])];
      FairProbs(["A", "B"], vs) == [0.55, 0.45]
  {
    TwoVectorQuoted();
    MeanPair(0.6, 0.5);
    MeanPair(0.4, 0.5);
  }

  /** Two sharp vectors quoting an outcome at 0.60 and 0.50 give it the fair
      probability 0.55. */
  lemma TwoVectorMean()
    ensures var vs := [SharpVec(["A", "B"], [0.6, 0.4]), SharpVec(["A", "B"], [0.5, 0.5])];
      FairProbs(Universe(vs), vs) == [0.55, 0.45]
  {
    TwoVectorUniverse();
    TwoVectorFair();
  }
}

=== FILE: feed.dfy ===
/** The odds provider's event snapshot, as the engine reads it. Network
    access is not modelled: events arrive as values. A field the provider
    leaves out is the empty string, which JavaScript treats as falsy just as
    it treats `undefined`; a price is whatever `Number(price)` produced. */
module Feed {
  import opened Wrappers
  import opened JsNum
  import opened Seqs

  datatype Quote = Quote(name: string, price: Num)

  datatype Market = Market(key: string, outcomes: seq<Quote>)

  datatype Bookmaker = Bookmaker(key: string, title: string, markets: seq<Market>)

  datatype Event = Event(id: string, home: string, away: string, commence: string, bookmakers: seq<Bookmaker>)

  /** The only market the engine reads: head-to-head (moneyline). */
  const H2h: string := "h2h"

  /** `markets.find(m => m.key === "h2h")`: the first head-to-head market. */
  function FindH2h(markets: seq<Market>): (r: Option<Market>)
    ensures r.None? <==> forall i :: 0 <= i < |markets| ==> markets[i].key != H2h
    ensures r.Some? ==> r.value.key == H2h
    ensures r.Some? ==> exists i :: 0 <= i < |markets| && markets[i] == r.value &&
                                   forall j :: 0 <= j < i ==> markets[j].key != H2h
  {
    if |markets| == 0 then None
    else if markets[0].key == H2h then Some(markets[0])
    else
      FindH2h(markets[1..])
  }

  /** `bk.title || bk.key`: how a bookmaker is named in a pick. */
  function Label(bk: Bookmaker): string
  {
    if bk.title != "" then bk.title else bk.key
  }

  /** One price offered for one outcome by one bookmaker. */
  datatype Offer = Offer(name: string, price: Num, book: string)

  function BookOffers(bk: Bookmaker): seq<Offer>
  {
    match FindH2h(bk.markets)
    case None => []
    case Some(m) =>
      seq(|m.outcomes|, i requires 0 <= i < |m.outcomes| =>
            Offer(m.outcomes[i].name, m.outcomes[i].price, Label(bk)))
  }

  /** Every head-to-head outcome of every bookmaker, in the order the
      best-price loop visits them. Bookmakers without that market offer
      nothing. */
  function Offers(bks: seq<Bookmaker>): (r: seq<Offer>)
    ensures forall o :: o in r ==> exists k :: 0 <= k < |bks| && o in BookOffers(bks[k])
  {
    if |bks| == 0 then []
    else
      var init := bks[..|bks| - 1];
      assert forall k :: 0 <= k < |init| ==> init[k] == bks[k];
      Offers(init) + BookOffers(bks[|bks| - 1])
  }
}

=== FILE: jsnum.dfy ===
/** JavaScript numbers as the engine sees them: an exact real, one of the two
    infinities, or NaN. Floating-point rounding is not modelled; what matters
    to the engine is which values `Number.isFinite`, `isNaN`, truthiness and
    the comparison operators let through. */
module JsNum {

  datatype Num = Fin(v: real) | PosInf | NegInf | NaN

  /** `Number.isFinite(n)` */
  predicate IsFinite(n: Num) {
    n.Fin?
  }

  /** The global `isNaN(n)` on a value that is already a number. */
  predicate IsNaN(n: Num) {
    n.NaN?
  }

  /** JavaScript truthiness of a number: every value except `0` and `NaN`. */
  predicate Truthy(n: Num) {
    !(n.NaN? || n == Fin(0.0))
  }

  /** The JavaScript comparison `a > b`; any comparison with NaN is false. */
  predicate Gt(a: Num, b: Num) {
    match (a, b)
    case (NaN, _) => false
    case (_, NaN) => false
    case (Fin(x), Fin(y)) => x > y
    case (PosInf, _) => b != PosInf
    case (NegInf, _) => false
    case (Fin(_), PosInf) => false
    case (Fin(_), NegInf) => true
  }

  /** The JavaScript comparison `a >= r` against a finite right operand. */
  predicate GeReal(a: Num, r: real) {
    match a
    case Fin(x) => x >= r
    case PosInf => true
    case NegInf => false
    case NaN => false
  }

  /** The JavaScript product `a * r` with a finite right operand. */
  function MulReal(a: Num, r: real): Num
  {
    match a
    case Fin(x) => Fin(x * r)
    case NaN => NaN
    case PosInf => if r > 0.0 then PosInf else if r < 0.0 then NegInf else NaN
    case NegInf => if r > 0.0 then NegInf else if r < 0.0 then PosInf else NaN
  }

  /** The JavaScript difference `a - r` with a finite right operand. */
  function SubReal(a: Num, r: real): Num
  {
    match a
    case Fin(x) => Fin(x - r)
    case _ => a
  }

  /** `>` is irreflexive and transitive on numbers, so a running maximum kept
      with `>` never goes down. */
  lemma GtTransitive(a: Num, b: Num, c: Num)
    requires Gt(a, b) && Gt(b, c)
    ensures Gt(a, c)
  {
  }
}

=== FILE: picks.dfy ===
/** The persisted pick table and its first-write-wins upsert. */
module Picks {
  import opened Wrappers
  import opened JsNum

  /** The twelve fields a scan fills in for one pick. Prices and EV keep
      their exact values (the two- and three-decimal rounding is not
      modelled). */
  datatype PickRow = PickRow(
    sportKey: string,
    eventId: string,
    commence: string,
    home: string,
    away: string,
    selection: string,
    market: string,
    fairOdds: Option<real>,
    softOdds: Num,
    evPct: Num,
    bestBook: Option<string>,
    sharpSources: string)

  datatype Status = Upcoming | Won | Lost | Push {
    predicate Terminal() { !Upcoming? }
  }

  /** One row of the `picks` table: the scan's fields plus the settlement
      columns. */
  datatype StoredPick = StoredPick(
    row: PickRow,
    status: Status,
    scoreHome: Option<real>,
    scoreAway: Option<real>,
    resolvedAt: Option<string>)

  /** The table, in insertion order; rows are never deleted, so the
      autoincrement id of the row at position `k` is `k + 1`. */
  type Store = seq<StoredPick>

  /** The upsert key. */
  function Key(p: PickRow): (string, string)
  {
    (p.eventId, p.selection)
  }

  predicate HasKey(store: Store, key: (string, string)) {
    exists k :: 0 <= k < |store| && Key(store[k].row) == key
  }

  /** A key present in a table stays present when rows are appended. */
  lemma HasKeyGrows(store: Store, bigger: Store, key: (string, string))
    requires store <= bigger && HasKey(store, key)
    ensures HasKey(bigger, key)
  {
    var k :| 0 <= k < |store| && Key(store[k].row) == key;
    assert bigger[k] == store[k];
  }

  /** At most one row per (event id, selection). */
  predicate Unique(store: Store) {
    forall j, k :: 0 <= j < k < |store| ==> Key(store[j].row) != Key(store[k].row)
  }

  /** `SELECT id FROM picks WHERE event_id=? AND selection=?`: the position
      of the first row with the key, or -1. */
  function Find(store: Store, key: (string, string)): (k: int)
    ensures -1 <= k < |store|
    ensures k == -1 <==> !HasKey(store, key)
    ensures k >= 0 ==> Key(store[k].row) == key && forall j :: 0 <= j < k ==> Key(store[j].row) != key
  {
    if |store| == 0 then -1
    else if Key(store[0].row) == key then 0
    else
      var k := Find(store[1..], key);
      assert forall j :: 0 < j < |store| ==> store[1..][j - 1] == store[j];
      if k == -1 then -1 else k + 1
  }

  /** A freshly inserted row: the schema defaults `status` to 'upcoming' and
      leaves the scores and resolution time empty. */
  function NewRow(p: PickRow): StoredPick
  {
    StoredPick(p, Upcoming, None, None, None)
  }

  /** `upsertPick(p)`: look the key up; if a row has it, return that row's id
      and change nothing, otherwise insert `p` and return the new id. */
  function Upsert(store: Store, p: PickRow): (r: (Store, nat))
    ensures store <= r.0 && |r.0| <= |store| + 1
    ensures 1 <= r.1 <= |r.0| && Key(r.0[r.1 - 1].row) == Key(p)
    ensures HasKey(store, Key(p)) ==> r.0 == store
    ensures !HasKey(store, Key(p)) ==> |r.0| == |store| + 1 && r.0[|store|] == StoredPick(p, Upcoming, None, None, None)
  {
    var k := Find(store, Key(p));
    if k >= 0 then (store, k + 1)
    else (store + [NewRow(p)], |store| + 1)
  }

  /** Upserting keeps the table free of duplicate keys. */
  lemma UpsertKeepsUnique(store: Store, p: PickRow)
    requires Unique(store)
    ensures Unique(Upsert(store, p).0)
  {
  }

  /** Upserting the same pick twice is the same as upserting it once, and
      both calls return the same id. */
  lemma UpsertIdempotent(store: Store, p: PickRow)
    ensures Upsert(Upsert(store, p).0, p) == Upsert(store, p)
  {
    var (s1, id1) := Upsert(store, p);
    if !HasKey(store, Key(p)) {
      assert Key(s1[|store|].row) == Key(p);
      assert Find(s1, Key(p)) == |store|;
    }
  }

  /** First write wins: after `p` is stored, a later pick `q` for the same
      event and selection changes nothing, whatever its odds or EV, and the
      row for the key keeps all of `p`'s fields. */
  lemma FirstWriteWins(store: Store, p: PickRow, q: PickRow)
    requires Key(p) == Key(q) && !HasKey(store, Key(p))
    ensures var (s1, id1) := Upsert(store, p);
      && Upsert(s1, q) == (s1, id1)
      && s1[id1 - 1].row == p
  {
    var (s1, id1) := Upsert(store, p);
    assert Key(s1[|store|].row) == Key(p);
    assert Find(s1, Key(q)) == |store|;
  }
}

=== FILE: scan.dfy ===
/** One scan: for every tracked sport and every event, the consensus fair
    probabilities, the best prices and the EV filter that turns them into
    pick rows; then every row is offered to the store. */
module Scan {
  import opened Wrappers
  import opened JsNum
  import opened Seqs
  import opened Text
  import opened Feed
  import opened Consensus
  import opened BestPrice
  import opened Picks

  /** The sport keys the engine follows: tennis and soccer competitions. */
  predicate Tracked(k: string) {
    "tennis_" <= k || "soccer_" <= k
  }

  function FilterTracked(keys: seq<string>): (r: seq<string>)
    ensures forall k :: k in r <==> k in keys && Tracked(k)
  {
    if |keys| == 0 then []
    else
      var init := keys[..|keys| - 1];
      var k := keys[|keys| - 1];
      assert keys == init + [k];
      FilterTracked(init) + (if Tracked(k) then [k] else [])
  }

  /** `listSports` without the request: the tracked keys of the provider's
      sport list, once each. */
  function TrackedSports(keys: seq<string>): (r: seq<string>)
    ensures NoDups(r)
    ensures forall k :: k in r <==> k in keys && Tracked(k)
  {
    Dedupe(FilterTracked(keys))
  }

  /** `Array.from(sharpTitles).sort()`: the distinct titles of the sharp
      bookmakers that produced a vector, in code-unit order. */
  function SourceList(titles: seq<string>): (r: seq<string>)
    ensures Sorted(r)
    ensures multiset(r) == multiset(Dedupe(titles))
    ensures forall t :: t in r <==> t in titles
  {
    var r := Sort(Dedupe(titles));
    assert forall t :: t in r <==> t in multiset(Dedupe(titles));
    r
  }

  /** The `sharp_sources` column: the sorted titles joined by ", ". */
  function SharpSources(titles: seq<string>): string
  {
    Join(SourceList(titles), ", ")
  }

  /** What the scan derives from one event before filtering: the outcome
      universe, the fair probability and the best offer of every outcome,
      and the sharp sources. */
  datatype Analysis = Analysis(universe: seq<string>, fair: seq<real>, best: seq<Best>, sources: string)

  /** Steps 1 and 2 of the event loop; `None` when no sharp bookmaker yields
      a usable vector (the `continue` on an empty vector list). */
  function Analyse(b: Build, ev: Event): (r: Option<Analysis>)
    ensures r.None? <==> forall j :: 0 <= j < |ev.bookmakers| ==> Vector(b, ev.bookmakers[j]).None?
    ensures r.Some? ==> Consistent(r.value)
    ensures r.Some? ==>
      (forall n :: n in r.value.universe <==>
            exists k :: 0 <= k < |SharpVectors(b, ev.bookmakers).0| && n in SharpVectors(b, ev.bookmakers).0[k].names)
  {
    var (vs, titles) := SharpVectors(b, ev.bookmakers);
    NoVectors(b, ev.bookmakers);
    if |vs| == 0 then None
    else
      var u := Universe(vs);
      Some(Analysis(u, FairProbs(u, vs), BestPrices(u, Offers(ev.bookmakers), b.Worker?), SharpSources(titles)))
  }

  /** Each outcome's recorded best offer is its reference best price over
      all bookmakers' head-to-head offers (finite ones only in the Worker
      build). */
  lemma AnalysisBest(b: Build, ev: Event, i: int)
    requires Analyse(b, ev).Some? && 0 <= i < |Analyse(b, ev).value.universe|
    ensures var a := Analyse(b, ev).value;
      var (odds, book) := BestFor(a.universe[i], Offers(ev.bookmakers), b.Worker?);
      a.best[i] == Best(a.universe[i], odds, book)
  {
    var a := Analyse(b, ev).value;
    BestPricesPerOutcome(a.universe, Offers(ev.bookmakers), b.Worker?, i);
  }

  /** Each outcome's fair probability is the mean of what the event's sharp
      vectors quote for it. */
  lemma AnalysisFair(b: Build, ev: Event, i: int)
    requires Analyse(b, ev).Some? && 0 <= i < |Analyse(b, ev).value.universe|
    ensures var a := Analyse(b, ev).value;
      var vs := SharpVectors(b, ev.bookmakers).0;
      && (forall k :: 0 <= k < |vs| ==> |vs[k].names| == |vs[k].probs|)
      && a.fair[i] == Mean(Quoted(a.universe[i], vs))
  {
  }

  /** The recorded sources are the sorted, distinct titles of the bookmakers
      that yielded a sharp vector, joined by ", ". */
  lemma AnalysisSources(b: Build, ev: Event)
    requires Analyse(b, ev).Some?
    ensures Analyse(b, ev).value.sources == SharpSources(SharpVectors(b, ev.bookmakers).1)
  {
  }

  /** `so.odds * pFair - 1` */
  function Edge(odds: Num, pFair: real): Num
  {
    SubReal(MulReal(odds, pFair), 1.0)
  }

  /** The EV test: skip a zero (or NaN) price and a zero fair probability,
      keep the outcome when its edge reaches `evMin`. */
  predicate Keep(best: Best, pFair: real, evMin: real) {
    Truthy(best.odds) && pFair != 0.0 && GeReal(Edge(best.odds, pFair), evMin)
  }

  function MakeRow(sport: string, ev: Event, best: Best, pFair: real, sources: string): PickRow
  {
    PickRow(sport, ev.id, ev.commence, ev.home, ev.away, best.name, H2h,
            if pFair > 0.0 then Some(1.0 / pFair) else None,
            best.odds, MulReal(Edge(best.odds, pFair), 100.0), best.book, sources)
  }

  /** The universe, fair probabilities and best offers line up: one entry
      per outcome, no outcome twice, probabilities in [0, 1]. */
  predicate Consistent(a: Analysis) {
    && |a.universe| == |a.fair| == |a.best|
    && NoDups(a.universe)
    && AllUnit(a.fair)
    && (forall i :: 0 <= i < |a.universe| ==> a.best[i].name == a.universe[i])
  }

  /** Step 3 over the first `n` outcomes: a row for every kept outcome, in
      universe order. */
  function EvRows(sport: string, ev: Event, a: Analysis, evMin: real, n: nat): (rows: seq<PickRow>)
    requires |a.fair| == |a.best| && n <= |a.best|
    ensures |rows| <= n
    ensures forall r :: r in rows ==>
      exists i :: 0 <= i < n && Keep(a.best[i], a.fair[i], evMin) && r == MakeRow(sport, ev, a.best[i], a.fair[i], a.sources)
    ensures forall i :: 0 <= i < n && Keep(a.best[i], a.fair[i], evMin) ==>
      MakeRow(sport, ev, a.best[i], a.fair[i], a.sources) in rows
  {
    if n == 0 then []
    else
      var i := n - 1;
      EvRows(sport, ev, a, evMin, i)
        + (if Keep(a.best[i], a.fair[i], evMin) then [MakeRow(sport, ev, a.best[i], a.fair[i], a.sources)] else [])
  }

  /** No outcome appears in two rows. */
  predicate DistinctSelections(rows: seq<PickRow>) {
    forall j, k :: 0 <= j < k < |rows| ==> rows[j].selection != rows[k].selection
  }

  /** Rows of one event never repeat a selection. */
  lemma {:induction false} EvRowsDistinct(sport: string, ev: Event, a: Analysis, evMin: real, n: nat)
    requires Consistent(a) && n <= |a.best|
    ensures DistinctSelections(EvRows(sport, ev, a, evMin, n))
  {
    if n > 0 {
      var i := n - 1;
      var prev := EvRows(sport, ev, a, evMin, i);
      EvRowsDistinct(sport, ev, a, evMin, i);
      var rows := EvRows(sport, ev, a, evMin, n);
      if Keep(a.best[i], a.fair[i], evMin) {
        var last := MakeRow(sport, ev, a.best[i], a.fair[i], a.sources);
        assert rows == prev + [last];
        forall j, k | 0 <= j < k < |rows|
          ensures rows[j].selection != rows[k].selection
        {
          assert rows[j] == prev[j] && rows[j] in prev;
          if k == |prev| {
            var i' :| 0 <= i' < i && Keep(a.best[i'], a.fair[i'], evMin)
                      && prev[j] == MakeRow(sport, ev, a.best[i'], a.fair[i'], a.sources);
            assert a.universe[i'] != a.universe[i];
            assert prev[j].selection == a.universe[i'];
            assert rows[k] == last && last.selection == a.universe[i];
          } else {
            assert rows[k] == prev[k];
            assert prev[j].selection != prev[k].selection;
          }
        }
      } else {
        assert rows == prev;
      }
    }
  }

  /** A pick row for an outcome of the event's universe, carrying the
      event's identity, the head-to-head market, a fair price of at least 1
      and the event's sharp sources. */
  predicate Describes(r: PickRow, sport: string, ev: Event, a: Analysis) {
    && r.sportKey == sport && r.eventId == ev.id && r.commence == ev.commence
    && r.home == ev.home && r.away == ev.away
    && r.market == H2h && r.selection in a.universe && r.sharpSources == a.sources
    && r.fairOdds.Some? && r.fairOdds.value >= 1.0
  }

  lemma RecipAtLeastOne(p: real)
    requires 0.0 < p <= 1.0
    ensures 1.0 / p >= 1.0
  {
  }

  /** The EV filter of one analysed event, in both directions: an outcome of
      the universe gets a row exactly when its best price is non-zero, its
      fair probability is non-zero and its edge reaches `evMin`; no outcome
      gets two rows; every row describes the event. */
  function EventRows(sport: string, ev: Event, a: Analysis, evMin: real): (rows: seq<PickRow>)
    requires Consistent(a)
    ensures |rows| <= |a.universe|
    ensures forall r :: r in rows ==> Describes(r, sport, ev, a)
    ensures forall i :: 0 <= i < |a.universe| ==>
      ((exists r :: r in rows && r.selection == a.universe[i]) <==> Keep(a.best[i], a.fair[i], evMin))
    ensures DistinctSelections(rows)
  {
    var rows := EvRows(sport, ev, a, evMin, |a.universe|);
    EvRowsDistinct(sport, ev, a, evMin, |a.universe|);
    EventRowsDescribe(sport, ev, a, evMin, rows);
    EventRowsSelect(sport, ev, a, evMin, rows);
    rows
  }

  lemma EventRowsDescribe(sport: string, ev: Event, a: Analysis, evMin: real, rows: seq<PickRow>)
    requires Consistent(a) && rows == EvRows(sport, ev, a, evMin, |a.universe|)
    ensures forall r :: r in rows ==> Describes(r, sport, ev, a)
  {
    forall r | r in rows
      ensures Describes(r, sport, ev, a)
    {
      var i :| 0 <= i < |a.universe| && Keep(a.best[i], a.fair[i], evMin)
                && r == MakeRow(sport, ev, a.best[i], a.fair[i], a.sources);
      assert 0.0 <= a.fair[i] <= 1.0;
      RecipAtLeastOne(a.fair[i]);
    }
  }

  lemma EventRowsSelect(sport: string, ev: Event, a: Analysis, evMin: real, rows: seq<PickRow>)
    requires Consistent(a) && rows == EvRows(sport, ev, a, evMin, |a.universe|)
    ensures forall i :: 0 <= i < |a.universe| ==>
      ((exists r :: r in rows && r.selection == a.universe[i]) <==> Keep(a.best[i], a.fair[i], evMin))
  {
    forall i | 0 <= i < |a.universe|
      ensures (exists r :: r in rows && r.selection == a.universe[i]) <==> Keep(a.best[i], a.fair[i], evMin)
    {
      if Keep(a.best[i], a.fair[i], evMin) {
        assert MakeRow(sport, ev, a.best[i], a.fair[i], a.sources) in rows;
      }
      if r :| r in rows && r.selection == a.universe[i] {
        EventRowSelected(sport, ev, a, evMin, rows, i, r);
      }
    }
  }

  /** A row naming outcome `i` is outcome `i`'s row, so `i` passed the
      filter. */
  lemma EventRowSelected(sport: string, ev: Event, a: Analysis, evMin: real, rows: seq<PickRow>, i: int, r: PickRow)
    requires Consistent(a) && rows == EvRows(sport, ev, a, evMin, |a.universe|)
    requires 0 <= i < |a.universe| && r in rows && r.selection == a.universe[i]
    ensures Keep(a.best[i], a.fair[i], evMin)
  {
    var j :| 0 <= j < |a.universe| && Keep(a.best[j], a.fair[j], evMin)
              && r == MakeRow(sport, ev, a.best[j], a.fair[j], a.sources);
    assert a.universe[j] == a.universe[i];
  }

  /** Whether the Worker build skips the event: a missing id, team or start
      time. The Express build has no such guard. */
  predicate Incomplete(ev: Event) {
    ev.id == "" || ev.home == "" || ev.away == "" || ev.commence == ""
  }

  /** Everything a scan of one event emits: nothing when the Worker's guard
      fails or when no sharp bookmaker yields a usable vector, otherwise the
      EV filter's rows for the event's analysis. */
  function ScanEvent(b: Build, sport: string, ev: Event, evMin: real): (rows: seq<PickRow>)
    ensures b.Worker? && Incomplete(ev) ==> rows == []
    ensures (forall j :: 0 <= j < |ev.bookmakers| ==> Vector(b, ev.bookmakers[j]).None?) ==> rows == []
    ensures rows != [] ==>
      && Analyse(b, ev).Some? && Consistent(Analyse(b, ev).value)
      && rows == EventRows(sport, ev, Analyse(b, ev).value, evMin)
    ensures !(b.Worker? && Incomplete(ev)) && Analyse(b, ev).Some? ==>
      rows == EventRows(sport, ev, Analyse(b, ev).value, evMin)
  {
    if b.Worker? && Incomplete(ev) then []
    else
      match Analyse(b, ev)
      case None => []
      case Some(a) => EventRows(sport, ev, a, evMin)
  }

  /** In the Worker build every emitted pick has a finite best price and a
      finite EV percentage equal to 100 times `soft_odds / fair_odds - 1`,
      and that edge reaches `evMin`. */
  lemma WorkerRowsFinite(sport: string, ev: Event, evMin: real)
    ensures forall r :: r in ScanEvent(Worker, sport, ev, evMin) ==> ValueBet(r, evMin)
  {
    var rows := ScanEvent(Worker, sport, ev, evMin);
    if rows != [] {
      var a := Analyse(Worker, ev).value;
      forall i | 0 <= i < |a.universe|
        ensures a.best[i].odds.Fin?
      {
        AnalysisBest(Worker, ev, i);
        var offers := Offers(ev.bookmakers);
        var (odds, book) := BestFor(a.universe[i], offers, true);
        if book.Some? {
          var k :| Candidate(offers, k, a.universe[i], true) && offers[k].price == odds;
        }
      }
      FiniteRowsValueBet(sport, ev, a, evMin);
    }
  }

  /** When every best price is finite, every row the EV filter emits is a
      value bet at `evMin`. */
  lemma FiniteRowsValueBet(sport: string, ev: Event, a: Analysis, evMin: real)
    requires Consistent(a)
    requires forall i :: 0 <= i < |a.universe| ==> a.best[i].odds.Fin?
    ensures forall r :: r in EventRows(sport, ev, a, evMin) ==> ValueBet(r, evMin)
  {
    var rows := EvRows(sport, ev, a, evMin, |a.universe|);
    forall r | r in rows
      ensures ValueBet(r, evMin)
    {
      var i :| 0 <= i < |a.universe| && Keep(a.best[i], a.fair[i], evMin)
                && r == MakeRow(sport, ev, a.best[i], a.fair[i], a.sources);
      assert 0.0 <= a.fair[i];
      KeptRowValueBet(sport, ev, a.best[i], a.fair[i], a.sources, evMin);
    }
  }

  lemma KeptRowValueBet(sport: string, ev: Event, best: Best, p: real, sources: string, evMin: real)
    requires best.odds.Fin? && 0.0 <= p && Keep(best, p, evMin)
    ensures ValueBet(MakeRow(sport, ev, best, p, sources), evMin)
  {
    DivByRecip(best.odds.v, p);
  }

  /** The row's price beats its fair price by at least `evMin`, and its EV
      column says by how much, in percent. */
  predicate ValueBet(r: PickRow, evMin: real) {
    && r.softOdds.Fin? && r.fairOdds.Some? && r.fairOdds.value > 0.0
    && r.softOdds.v / r.fairOdds.value - 1.0 >= evMin
    && r.evPct == Fin((r.softOdds.v / r.fairOdds.value - 1.0) * 100.0)
  }

  lemma DivByRecip(x: real, p: real)
    requires p > 0.0
    ensures 1.0 / p > 0.0 && x / (1.0 / p) == x * p
  {
  }

  /** The Express build does not filter infinite prices: when any bookmaker
      quotes `Infinity` for an outcome with a positive fair probability, the
      outcome is picked with infinite odds and an infinite EV. (The Worker
      build never emits such a row, by `WorkerRowsFinite`.) */
  lemma LegacyInfinitePick(sport: string, ev: Event, evMin: real, i: int, o: Offer)
    requires Analyse(Legacy, ev).Some?
    requires 0 <= i < |Analyse(Legacy, ev).value.universe| && Analyse(Legacy, ev).value.fair[i] > 0.0
    requires o in Offers(ev.bookmakers) && o.name == Analyse(Legacy, ev).value.universe[i] && o.price == PosInf
    ensures exists r :: (r in ScanEvent(Legacy, sport, ev, evMin)
      && r.selection == o.name && r.softOdds == PosInf && r.evPct == PosInf)
  {
    var a := Analyse(Legacy, ev).value;
    var offers := Offers(ev.bookmakers);
    AnalysisBest(Legacy, ev, i);
    InfiniteOfferWins(offers, a.universe[i], o);
    InfiniteBestPicked(sport, ev, a, evMin, i);
  }

  /** An infinite offer, admitted, leaves nothing above it. */
  lemma InfiniteOfferWins(offers: seq<Offer>, name: string, o: Offer)
    requires o in offers && o.name == name && o.price == PosInf
    ensures BestFor(name, offers, false).0 == PosInf
  {
    var k :| 0 <= k < |offers| && offers[k] == o;
    assert Candidate(offers, k, name, false);
  }

  lemma InfiniteBestPicked(sport: string, ev: Event, a: Analysis, evMin: real, i: int)
    requires Consistent(a) && 0 <= i < |a.universe|
    requires a.best[i].odds == PosInf && a.fair[i] > 0.0
    ensures exists r :: (r in EventRows(sport, ev, a, evMin)
      && r.selection == a.universe[i] && r.softOdds == PosInf && r.evPct == PosInf)
  {
    assert Keep(a.best[i], a.fair[i], evMin);
    var r := MakeRow(sport, ev, a.best[i], a.fair[i], a.sources);
    assert r in EvRows(sport, ev, a, evMin, |a.universe|);
  }

  /** The provider's events for one sport. */
  datatype SportFeed = SportFeed(sportKey: string, events: seq<Event>)

  /** Each event's rows, event by event. */
  function EventRowLists(b: Build, f: SportFeed, evMin: real): (xss: seq<seq<PickRow>>)
    ensures |xss| == |f.events|
    ensures forall e :: 0 <= e < |f.events| ==> xss[e] == ScanEvent(b, f.sportKey, f.events[e], evMin)
  {
    seq(|f.events|, e requires 0 <= e < |f.events| => ScanEvent(b, f.sportKey, f.events[e], evMin))
  }

  /** The loop over a sport's events: every event's rows, concatenated in
      event order. */
  function ScanFeed(b: Build, f: SportFeed, evMin: real): seq<PickRow>
  {
    Flatten(EventRowLists(b, f, evMin))
  }

  /** Each sport's rows, sport by sport. */
  function FeedRowLists(b: Build, feeds: seq<SportFeed>, evMin: real): (xss: seq<seq<PickRow>>)
    ensures |xss| == |feeds|
    ensures forall s :: 0 <= s < |feeds| ==> xss[s] == ScanFeed(b, feeds[s], evMin)
  {
    seq(|feeds|, s requires 0 <= s < |feeds| => ScanFeed(b, feeds[s], evMin))
  }

  /** `scanOnce`: the rows of every event of every sport, in visiting
      order. */
  function ScanOnce(b: Build, feeds: seq<SportFeed>, evMin: real): seq<PickRow>
  {
    Flatten(FeedRowLists(b, feeds, evMin))
  }

  /** A sport's rows are exactly the rows of its events. */
  lemma ScanFeedRows(b: Build, f: SportFeed, evMin: real)
    ensures forall r :: r in ScanFeed(b, f, evMin) <==>
      exists e :: 0 <= e < |f.events| && r in ScanEvent(b, f.sportKey, f.events[e], evMin)
  {
    var xss := EventRowLists(b, f, evMin);
    forall r | r in ScanFeed(b, f, evMin)
      ensures exists e :: 0 <= e < |f.events| && r in ScanEvent(b, f.sportKey, f.events[e], evMin)
    {
      var e :| 0 <= e < |xss| && r in xss[e];
      assert r in ScanEvent(b, f.sportKey, f.events[e], evMin);
    }
    forall r, e | 0 <= e < |f.events| && r in ScanEvent(b, f.sportKey, f.events[e], evMin)
      ensures r in ScanFeed(b, f, evMin)
    {
      assert r in xss[e];
    }
  }

  /** A scan's rows are exactly the rows of the events of its sports. */
  lemma ScanOnceRows(b: Build, feeds: seq<SportFeed>, evMin: real)
    ensures forall r :: r in ScanOnce(b, feeds, evMin) <==>
      exists s, e :: 0 <= s < |feeds| && 0 <= e < |feeds[s].events| && r in ScanEvent(b, feeds[s].sportKey, feeds[s].events[e], evMin)
  {
    var xss := FeedRowLists(b, feeds, evMin);
    forall r | r in ScanOnce(b, feeds, evMin)
      ensures exists s, e :: 0 <= s < |feeds| && 0 <= e < |feeds[s].events| && r in ScanEvent(b, feeds[s].sportKey, feeds[s].events[e], evMin)
    {
      var s :| 0 <= s < |xss| && r in xss[s];
      ScanFeedRows(b, feeds[s], evMin);
      var e :| 0 <= e < |feeds[s].events| && r in ScanEvent(b, feeds[s].sportKey, feeds[s].events[e], evMin);
    }
    forall r, s, e | 0 <= s < |feeds| && 0 <= e < |feeds[s].events| && r in ScanEvent(b, feeds[s].sportKey, feeds[s].events[e], evMin)
      ensures r in ScanOnce(b, feeds, evMin)
    {
      ScanFeedRows(b, feeds[s], evMin);
      assert r in xss[s];
    }
  }

  /** Upserting every row in order and counting the calls: the `inserted`
      counter of both entry points. */
  function StoreAll(store: Store, rows: seq<PickRow>): (r: (Store, nat))
    ensures r.1 == |rows|
    ensures store <= r.0 && |r.0| <= |store| + |rows|
    ensures forall p :: p in rows ==> HasKey(r.0, Key(p))
    ensures forall k :: |store| <= k < |r.0| ==> r.0[k].row in rows && r.0[k].status == Upcoming
  {
    if |rows| == 0 then (store, 0)
    else
      var init := rows[..|rows| - 1];
      var p := rows[|rows| - 1];
      assert rows == init + [p];
      var (s, n) := StoreAll(store, init);
      var (s2, _) := Upsert(s, p);
      forall q | q in init
        ensures HasKey(s2, Key(q))
      {
        HasKeyGrows(s, s2, Key(q));
      }
      (s2, n + 1)
  }

  /** Storing rows keeps the table free of duplicate keys. */
  lemma {:induction false} StoreAllKeepsUnique(store: Store, rows: seq<PickRow>)
    requires Unique(store)
    ensures Unique(StoreAll(store, rows).0)
  {
    if |rows| > 0 {
      var init := rows[..|rows| - 1];
      StoreAllKeepsUnique(store, init);
      UpsertKeepsUnique(StoreAll(store, init).0, rows[|rows| - 1]);
    }
  }

  /** Rows whose keys are all in the table already change nothing. */
  lemma {:induction false} StoreAllPresent(store: Store, rows: seq<PickRow>)
    requires forall p :: p in rows ==> HasKey(store, Key(p))
    ensures StoreAll(store, rows).0 == store
  {
    if |rows| > 0 {
      var init := rows[..|rows| - 1];
      assert forall p :: p in init ==> p in rows;
      StoreAllPresent(store, init);
    }
  }

  /** Storing the same scan twice adds no row the second time, yet the
      counter reports every candidate again: it counts candidates, not
      insertions. */
  lemma RescanCountsAgain(store: Store, rows: seq<PickRow>)
    ensures var (s1, n1) := StoreAll(store, rows);
      StoreAll(s1, rows) == (s1, n1)
  {
    var (s1, n1) := StoreAll(store, rows);
    StoreAllPresent(s1, rows);
  }
}

=== FILE: scenario.dfy ===
/** A worked event through the whole Worker pipeline: one sharp book quoting
    even money on both sides, one soft book offering more on the home
    side. */
module Scenario {
  import opened Wrappers
  import opened JsNum
  import opened Seqs
  import opened Text
  import opened Sharp
  import opened Vig
  import opened Feed
  import opened Consensus
  import opened BestPrice
  import opened Picks
  import opened Scan

  const Pin: Bookmaker := Bookmaker("pinnacle", "Pinnacle", [Market(H2h, [Quote("A", Fin(2.0)), Quote("B", Fin(2.0))])])
  const Soft: Bookmaker := Bookmaker("lowvig", "LowVig", [Market(H2h, [Quote("A", Fin(2.2)), Quote("B", Fin(2.0))])])
  const Match: Event := Event("ev1", "A", "B", "2025-01-01T12:00:00Z", [Pin, Soft])

  /** Equal prices on both sides remove to an even split. */
  lemma EvenMoney()
    ensures RemoveVigProportional([2.0, 2.0]) == Some([0.5, 0.5])
  {
    var r := RemoveVigProportional([2.0, 2.0]).value;
    assert Implied([2.0, 2.0]) == [0.5, 0.5];
    assert r[0] * 0.5 == r[1] * 0.5;
    SumPair(r[0], r[1]);
    assert r == [r[0], r[1]];
  }

  lemma PinVector()
    ensures WorkerVector(Pin) == Some(SharpVec(["A", "B"], [0.5, 0.5]))
  {
    PinIsSharp();
    var qs := [Quote("A", Fin(2.0)), Quote("B", Fin(2.0))];
    assert qs[..1] == [Quote("A", Fin(2.0))];
    assert PresentNames(qs) == ["A", "B"];
    assert FinitePrices(qs) == [2.0, 2.0];
    EvenMoney();
  }

  lemma PinIsSharp()
    ensures IsSharp(WorkerHints, Pin.key, Pin.title)
  {
    var s := Lower(Pin.key + " " + Pin.title);
    var h := WorkerHints[0];
    forall i | 0 <= i < 8
      ensures s[i] == h[i]
    {
    }
    assert s[0..8] == h;
    assert OccursAt(s, h, 0);
    assert Contains(s, h);
  }

  lemma SoftIsNotSharp()
    ensures !IsSharp(WorkerHints, Soft.key, Soft.title)
  {
    var s := Lower(Soft.key + " " + Soft.title);
    var t := "lowvig lowvig";
    forall i | 0 <= i < |t|
      ensures s[i] == t[i]
    {
    }
    assert s == t;
    forall i | 0 <= i < |WorkerHints|
      ensures !Contains(s, WorkerHints[i])
    {
      NoFirstChar(s, WorkerHints[i]);
    }
  }

  lemma SoftVector()
    ensures WorkerVector(Soft) == None
  {
    SoftIsNotSharp();
  }

  const PinVec: SharpVec := SharpVec(["A", "B"], [0.5, 0.5])

  lemma MatchVectors()
    ensures SharpVectors(Worker, Match.bookmakers) == ([PinVec], ["Pinnacle"])
  {
    PinVector();
    SoftVector();
    assert [Pin][..0] == [];
    assert SharpVectors(Worker, []) == ([], []);
    assert Vector(Worker, Pin) == Some(PinVec);
    assert Label(Pin) == "Pinnacle";
    assert SharpVectors(Worker, [Pin]) == ([] + [PinVec], [] + ["Pinnacle"]);
    assert [] + [PinVec] == [PinVec] && [] + ["Pinnacle"] == ["Pinnacle"];
    var bks := Match.bookmakers;
    assert bks == [Pin, Soft] && bks[..1] == [Pin] && bks[1] == Soft;
    assert Vector(Worker, Soft) == None;
    assert bks[..|bks| - 1] == [Pin];
    assert SharpVectors(Worker, bks[..|bks| - 1]) == ([PinVec], ["Pinnacle"]);
    assert bks[|bks| - 1] == Soft;
  }

  const MatchOffers: seq<Offer> :=
    [Offer("A", Fin(2.0), "Pinnacle"), Offer("B", Fin(2.0), "Pinnacle"),
     Offer("A", Fin(2.2), "LowVig"), Offer("B", Fin(2.0), "LowVig")]

  lemma OffersOfMatch()
    ensures Offers(Match.bookmakers) == MatchOffers
  {
    assert BookOffers(Pin) == MatchOffers[..2];
    assert BookOffers(Soft) == MatchOffers[2..];
    assert [Pin][..0] == [];
    assert Offers([Pin]) == MatchOffers[..2];
    assert Match.bookmakers[..1] == [Pin];
  }

  const MatchBest: seq<Best> := [Best("A", Fin(2.2), Some("LowVig")), Best("B", Fin(2.0), Some("Pinnacle"))]

  /** B's equal price at the soft book does not displace the sharp book's:
      the first bookmaker to reach the best price keeps it. */
  lemma BestOfMatch()
    ensures BestPrices(["A", "B"], MatchOffers, true) == MatchBest
  {
    var u := ["A", "B"];
    var b1 := [Best("A", Fin(2.0), Some("Pinnacle")), Best("B", Fin(0.0), None)];
    var b2 := [Best("A", Fin(2.0), Some("Pinnacle")), Best("B", Fin(2.0), Some("Pinnacle"))];
    assert MatchOffers[..1][..0] == [];
    assert BestPrices(u, MatchOffers[..1], true) == b1;
    assert MatchOffers[..2][..1] == MatchOffers[..1];
    assert BestPrices(u, MatchOffers[..2], true) == b2;
    assert MatchOffers[..3][..2] == MatchOffers[..2];
    assert BestPrices(u, MatchOffers[..3], true) == MatchBest;
    assert MatchOffers[..3] == MatchOffers[..|MatchOffers| - 1];
  }

  const MatchAnalysisValue: Analysis := Analysis(["A", "B"], [0.5, 0.5], MatchBest, "Pinnacle")

  /** With the sharp book alone, the consensus is its own vector. */
  lemma MatchConsensus()
    ensures Universe([PinVec]) == ["A", "B"]
    ensures FairProbs(["A", "B"], [PinVec]) == [0.5, 0.5]
  {
    SumPair(0.5, 0.5);
    SingleVectorConsensus(PinVec);
  }

  lemma MatchSources()
    ensures SharpSources(["Pinnacle"]) == "Pinnacle"
  {
    assert Dedupe(["Pinnacle"]) == ["Pinnacle"];
    assert SourceList(["Pinnacle"]) == ["Pinnacle"];
  }

  lemma MatchAnalysis()
    ensures Analyse(Worker, Match) == Some(MatchAnalysisValue)
  {
    MatchVectors();
    MatchConsensus();
    MatchSources();
    OffersOfMatch();
    BestOfMatch();
  }

  const MatchRow: PickRow :=
    PickRow("soccer_epl", "ev1", "2025-01-01T12:00:00Z", "A", "B", "A", H2h,
            Some(2.0), Fin(2.2), Fin(10.0), Some("LowVig"), "Pinnacle")

  lemma MatchFilter()
    ensures EventRows("soccer_epl", Match, MatchAnalysisValue, 0.03) == [MatchRow]
  {
    var a := MatchAnalysisValue;
    assert Keep(a.best[0], 0.5, 0.03);
    assert !Keep(a.best[1], 0.5, 0.03);
    assert MakeRow("soccer_epl", Match, a.best[0], 0.5, "Pinnacle") == MatchRow;
    assert EvRows("soccer_epl", Match, a, 0.03, 1) == [MatchRow];
  }

  /** The scan keeps A (2.2 against a fair price of 2: an edge of 10%) and
      drops B, whose best price stays with the sharp book at an edge of 0,
      below the 3% threshold. */
  lemma MatchPicks()
    ensures ScanEvent(Worker, "soccer_epl", Match, 0.03) == [MatchRow]
  {
    MatchAnalysis();
    MatchFilter();
  }
}

=== FILE: seqs.dfy ===
/** Sequence vocabulary shared by the engine: JavaScript's `reduce` sum,
    `indexOf`, `map(...).filter(...)`, `new Set(...)` de-duplication and
    `flat`. */
module Seqs {
  import opened Wrappers

  /** The left fold `xs.reduce((a, b) => a + b, 0)` over exact reals. */
  function Sum(xs: seq<real>): real
  {
    if |xs| == 0 then 0.0 else Sum(xs[..|xs| - 1]) + xs[|xs| - 1]
  }

  predicate AllNonNeg(xs: seq<real>) {
    forall i :: 0 <= i < |xs| ==> xs[i] >= 0.0
  }

  predicate AllUnit(xs: seq<real>) {
    forall i :: 0 <= i < |xs| ==> 0.0 <= xs[i] <= 1.0
  }

  /** `xs.map(p => p / d)` */
  function Scale(xs: seq<real>, d: real): (ys: seq<real>)
    requires d != 0.0
    ensures |ys| == |xs|
    ensures forall i :: 0 <= i < |xs| ==> ys[i] * d == xs[i]
  {
    seq(|xs|, i requires 0 <= i < |xs| => xs[i] / d)
  }

  /** A sum of non-negative reals is non-negative, and it is zero exactly
      when every term is. */
  lemma {:induction false} SumNonNeg(xs: seq<real>)
    requires AllNonNeg(xs)
    ensures Sum(xs) >= 0.0
    ensures Sum(xs) == 0.0 <==> forall i :: 0 <= i < |xs| ==> xs[i] == 0.0
  {
    if |xs| > 0 {
      var init := xs[..|xs| - 1];
      SumNonNeg(init);
      assert forall i :: 0 <= i < |init| ==> init[i] == xs[i];
    }
  }

  /** A sum of terms in [0, 1] is at most the number of terms. */
  lemma {:induction false} SumAtMostLength(xs: seq<real>)
    requires AllUnit(xs)
    ensures 0.0 <= Sum(xs) <= |xs| as real
  {
    if |xs| > 0 {
      var init := xs[..|xs| - 1];
      assert forall i :: 0 <= i < |init| ==> init[i] == xs[i];
      SumAtMostLength(init);
    }
  }

  /** Dividing every term by `d` divides the sum by `d`. */
  lemma SumScale(xs: seq<real>, d: real)
    requires d != 0.0
    ensures Sum(Scale(xs, d)) * d == Sum(xs)
    ensures Sum(Scale(xs, d)) == Sum(xs) / d
  {
    SumScaleProduct(xs, d);
    Quotient(Sum(Scale(xs, d)), d, Sum(xs));
  }

  lemma {:induction false} SumScaleProduct(xs: seq<real>, d: real)
    requires d != 0.0
    ensures Sum(Scale(xs, d)) * d == Sum(xs)
  {
    if |xs| > 0 {
      var init := xs[..|xs| - 1];
      var ys := Scale(xs, d);
      assert ys[..|ys| - 1] == Scale(init, d);
      SumScaleProduct(init, d);
      assert Sum(ys) * d == Sum(ys[..|ys| - 1]) * d + ys[|ys| - 1] * d;
    }
  }

  /** A factor that multiplies `d` into `y` is `y / d`. */
  lemma Quotient(x: real, d: real, y: real)
    requires d != 0.0 && x * d == y
    ensures x == y / d
  {
    assert (y / d) * d == y;
    assert (x - y / d) * d == 0.0;
  }

  /** The sum of a one-element sequence is that element. */
  lemma SumSingleton(x: real)
    ensures Sum([x]) == x
  {
    assert [x][..0] == [];
  }

  /** The sum of a two-element sequence. */
  lemma SumPair(x: real, y: real)
    ensures Sum([x, y]) == x + y
  {
    assert [x, y][..1] == [x];
    SumSingleton(x);
  }

  /** How many elements of `xs` the partial map `f` keeps. */
  function KeptCount<T, U>(xs: seq<T>, f: T -> Option<U>): nat
  {
    if |xs| == 0 then 0
    else KeptCount(xs[..|xs| - 1], f) + (if f(xs[|xs| - 1]).Some? then 1 else 0)
  }

  /** `ys` is `xs.map(g).filter(keep)`, with `f` combining the map and the
      test: it holds one entry per element `f` keeps, and the image of the
      element kept at position `i` sits at that element's rank, the number
      of kept elements before it. */
  predicate FilterMapped<T, U(==)>(xs: seq<T>, f: T -> Option<U>, ys: seq<U>) {
    && |ys| == KeptCount(xs, f)
    && forall i :: 0 <= i < |xs| && f(xs[i]).Some? ==>
         KeptCount(xs[..i], f) < |ys| && ys[KeptCount(xs[..i], f)] == f(xs[i]).value
  }

  /** One more element: its image is appended when it is kept. */
  lemma FilterMappedSnoc<T, U>(xs: seq<T>, f: T -> Option<U>, ys: seq<U>, x: T)
    requires FilterMapped(xs, f, ys)
    ensures FilterMapped(xs + [x], f, ys + (if f(x).Some? then [f(x).value] else []))
  {
    var xs' := xs + [x];
    var ys' := ys + (if f(x).Some? then [f(x).value] else []);
    assert xs'[..|xs|] == xs;
    forall i | 0 <= i < |xs'| && f(xs'[i]).Some?
      ensures KeptCount(xs'[..i], f) < |ys'| && ys'[KeptCount(xs'[..i], f)] == f(xs'[i]).value
    {
      if i < |xs| {
        assert xs'[..i] == xs[..i];
        assert xs'[i] == xs[i];
      }
    }
  }

  /** A kept element has fewer kept elements before it than the whole
      sequence has. */
  lemma {:induction false} KeptBefore<T, U>(xs: seq<T>, f: T -> Option<U>, i: int)
    requires 0 <= i < |xs| && f(xs[i]).Some?
    ensures KeptCount(xs[..i], f) < KeptCount(xs, f)
  {
    var init := xs[..|xs| - 1];
    if i < |xs| - 1 {
      KeptBefore(init, f, i);
      assert init[..i] == xs[..i];
    }
  }

  /** Removing the last element from both sides keeps the relation. */
  lemma FilterMappedInit<T, U>(xs: seq<T>, f: T -> Option<U>, ys: seq<U>)
    requires |xs| > 0 && FilterMapped(xs, f, ys)
    ensures var c := if f(xs[|xs| - 1]).Some? then 1 else 0;
      && c <= |ys|
      && FilterMapped(xs[..|xs| - 1], f, ys[..|ys| - c])
      && (c == 1 ==> ys[|ys| - 1] == f(xs[|xs| - 1]).value)
  {
    var init := xs[..|xs| - 1];
    var c := if f(xs[|xs| - 1]).Some? then 1 else 0;
    var ys' := ys[..|ys| - c];
    forall i | 0 <= i < |init| && f(init[i]).Some?
      ensures KeptCount(init[..i], f) < |ys'| && ys'[KeptCount(init[..i], f)] == f(init[i]).value
    {
      assert init[i] == xs[i] && init[..i] == xs[..i];
      KeptBefore(init, f, i);
    }
    if c == 1 {
      assert xs[..|xs| - 1] == init;
    }
  }

  /** The relation determines the filtered sequence: it is a complete
      description of `map(...).filter(...)`. */
  lemma {:induction false} FilterMappedUnique<T, U>(xs: seq<T>, f: T -> Option<U>, ys: seq<U>, zs: seq<U>)
    requires FilterMapped(xs, f, ys) && FilterMapped(xs, f, zs)
    ensures ys == zs
  {
    if |xs| > 0 {
      var c := if f(xs[|xs| - 1]).Some? then 1 else 0;
      FilterMappedInit(xs, f, ys);
      FilterMappedInit(xs, f, zs);
      FilterMappedUnique(xs[..|xs| - 1], f, ys[..|ys| - c], zs[..|zs| - c]);
      assert ys == ys[..|ys| - c] + ys[|ys| - c..];
      assert zs == zs[..|zs| - c] + zs[|zs| - c..];
    }
  }

  /** When nothing is dropped, every element is kept. */
  lemma {:induction false} KeptCountAll<T, U>(xs: seq<T>, f: T -> Option<U>)
    requires forall k :: 0 <= k < |xs| ==> f(xs[k]).Some?
    ensures KeptCount(xs, f) == |xs|
  {
    if |xs| > 0 {
      var init := xs[..|xs| - 1];
      assert forall k :: 0 <= k < |init| ==> init[k] == xs[k];
      KeptCountAll(init, f);
    }
  }

  /** When nothing is dropped, the filter is a plain map. */
  lemma FilterMappedAll<T, U>(xs: seq<T>, f: T -> Option<U>, ys: seq<U>)
    requires FilterMapped(xs, f, ys) && forall k :: 0 <= k < |xs| ==> f(xs[k]).Some?
    ensures |ys| == |xs| && forall k :: 0 <= k < |xs| ==> ys[k] == f(xs[k]).value
  {
    KeptCountAll(xs, f);
    forall k | 0 <= k < |xs|
      ensures ys[k] == f(xs[k]).value
    {
      assert forall j :: 0 <= j < k ==> xs[..k][j] == xs[j];
      KeptCountAll(xs[..k], f);
    }
  }

  predicate NoDups<T(==)>(xs: seq<T>) {
    forall i, j :: 0 <= i < j < |xs| ==> xs[i] != xs[j]
  }

  /** JavaScript's `xs.indexOf(x)`: the first position holding `x`, or -1. */
  function IndexOf<T(==)>(xs: seq<T>, x: T): (k: int)
    ensures -1 <= k < |xs|
    ensures k == -1 <==> x !in xs
    ensures k >= 0 ==> xs[k] == x && forall j :: 0 <= j < k ==> xs[j] != x
  {
    if |xs| == 0 then -1
    else if xs[0] == x then 0
    else
      var k := IndexOf(xs[1..], x);
      if k == -1 then -1 else k + 1
  }

  /** In a sequence without duplicates, `indexOf` finds every position. */
  lemma IndexOfNoDups<T>(xs: seq<T>, i: int)
    requires NoDups(xs) && 0 <= i < |xs|
    ensures IndexOf(xs, xs[i]) == i
  {
  }

  /** `Array.from(new Set(xs))`: the distinct elements of `xs`, each at the
      place it was first seen. */
  function Dedupe<T(==, !new)>(xs: seq<T>): (r: seq<T>)
    ensures NoDups(r)
    ensures forall x :: x in r <==> x in xs
    ensures |r| <= |xs|
  {
    if |xs| == 0 then []
    else
      var d := Dedupe(xs[..|xs| - 1]);
      assert xs == xs[..|xs| - 1] + [xs[|xs| - 1]];
      if xs[|xs| - 1] in d then d else d + [xs[|xs| - 1]]
  }

  /** `Dedupe` keeps first-seen order: an element that appears earlier in the
      result was seen earlier in the input. */
  lemma {:induction false} DedupeOrder<T(!new)>(xs: seq<T>)
    ensures forall i, j :: 0 <= i < j < |Dedupe(xs)| ==>
      IndexOf(xs, Dedupe(xs)[i]) < IndexOf(xs, Dedupe(xs)[j])
  {
    if |xs| > 0 {
      var init := xs[..|xs| - 1];
      var last := xs[|xs| - 1];
      DedupeOrder(init);
      var d := Dedupe(init);
      forall y | y in init
        ensures IndexOf(xs, y) == IndexOf(init, y)
      {
        IndexOfPrefix(init, xs, y);
      }
      if last !in d {
        assert last !in init;
        assert IndexOf(xs, last) == |xs| - 1;
      }
    }
  }

  /** `indexOf` on an extension finds an element of the prefix where the
      prefix has it. */
  lemma {:induction false} IndexOfPrefix<T>(pre: seq<T>, xs: seq<T>, y: T)
    requires pre <= xs && y in pre
    ensures IndexOf(xs, y) == IndexOf(pre, y)
  {
    var k := IndexOf(pre, y);
    var m := IndexOf(xs, y);
    assert xs[k] == y;
    assert m <= k;
    assert m < |pre| && pre[m] == y;
  }

  /** A sequence without duplicates is its own de-duplication. */
  lemma {:induction false} DedupeNoDups<T(!new)>(xs: seq<T>)
    requires NoDups(xs)
    ensures Dedupe(xs) == xs
  {
    if |xs| > 0 {
      var init := xs[..|xs| - 1];
      DedupeNoDups(init);
      assert xs[|xs| - 1] !in init;
    }
  }

  /** `xss.flat()`: the concatenation of a sequence of sequences. */
  function Flatten<T(!new)>(xss: seq<seq<T>>): (r: seq<T>)
    ensures forall x :: x in r <==> exists k :: 0 <= k < |xss| && x in xss[k]
  {
    if |xss| == 0 then []
    else
      var init := xss[..|xss| - 1];
      var r := Flatten(init) + xss[|xss| - 1];
      assert forall k :: 0 <= k < |init| ==> init[k] == xss[k];
      r
  }

  /** The term-by-term sum of two equally long sequences. */
  function AddSeqs(xs: seq<real>, ys: seq<real>): (zs: seq<real>)
    requires |xs| == |ys|
    ensures |zs| == |xs| && forall i :: 0 <= i < |xs| ==> zs[i] == xs[i] + ys[i]
  {
    seq(|xs|, i requires 0 <= i < |xs| => xs[i] + ys[i])
  }

  /** Summation is linear. */
  lemma {:induction false} SumAdd(xs: seq<real>, ys: seq<real>)
    requires |xs| == |ys|
    ensures Sum(AddSeqs(xs, ys)) == Sum(xs) + Sum(ys)
  {
    if |xs| > 0 {
      var n := |xs| - 1;
      assert AddSeqs(xs, ys)[..n] == AddSeqs(xs[..n], ys[..n]);
      SumAdd(xs[..n], ys[..n]);
    }
  }

  /** Column `i` of a matrix given as a sequence of rows. */
  function Column(m: seq<seq<real>>, i: nat): (c: seq<real>)
    requires forall k :: 0 <= k < |m| ==> i < |m[k]|
    ensures |c| == |m| && forall k :: 0 <= k < |m| ==> c[k] == m[k][i]
  {
    seq(|m|, k requires 0 <= k < |m| => m[k][i])
  }

  function ColumnSums(m: seq<seq<real>>, n: nat): (cs: seq<real>)
    requires forall k :: 0 <= k < |m| ==> |m[k]| == n
    ensures |cs| == n && forall i :: 0 <= i < n ==> cs[i] == Sum(Column(m, i))
  {
    seq(n, i requires 0 <= i < n => Sum(Column(m, i)))
  }

  function RowSums(m: seq<seq<real>>): (rs: seq<real>)
    ensures |rs| == |m| && forall k :: 0 <= k < |m| ==> rs[k] == Sum(m[k])
  {
    seq(|m|, k requires 0 <= k < |m| => Sum(m[k]))
  }

  lemma ColumnSumsOfEmpty(n: nat)
    ensures Sum(ColumnSums([], n)) == 0.0
  {
    var cs := ColumnSums([], n);
    forall i | 0 <= i < n
      ensures cs[i] == 0.0
    {
      assert Column([], i) == [];
    }
    SumNonNeg(cs);
  }

  lemma ColumnSumsSnoc(m: seq<seq<real>>, n: nat)
    requires |m| > 0 && forall k :: 0 <= k < |m| ==> |m[k]| == n
    ensures ColumnSums(m, n) == AddSeqs(ColumnSums(m[..|m| - 1], n), m[|m| - 1])
  {
    var init := m[..|m| - 1];
    forall i | 0 <= i < n
      ensures Sum(Column(m, i)) == Sum(Column(init, i)) + m[|m| - 1][i]
    {
      assert Column(m, i)[..|m| - 1] == Column(init, i);
    }
  }

  /** Summing a matrix by columns or by rows gives the same total. */
  lemma {:induction false} SumByColumnsOrRows(m: seq<seq<real>>, n: nat)
    requires forall k :: 0 <= k < |m| ==> |m[k]| == n
    ensures Sum(ColumnSums(m, n)) == Sum(RowSums(m))
  {
    if |m| == 0 {
      ColumnSumsOfEmpty(n);
    } else {
      var init := m[..|m| - 1];
      var last := m[|m| - 1];
      SumByColumnsOrRows(init, n);
      ColumnSumsSnoc(m, n);
      SumAdd(ColumnSums(init, n), last);
      assert RowSums(m)[..|m| - 1] == RowSums(init);
    }
  }

  /** A sum of `|xs|` copies of `c`. */
  lemma {:induction false} SumConstant(xs: seq<real>, c: real)
    requires forall i :: 0 <= i < |xs| ==> xs[i] == c
    ensures Sum(xs) == |xs| as real * c
  {
    if |xs| > 0 {
      SumConstant(xs[..|xs| - 1], c);
    }
  }

  lemma SumOfOnes(xs: seq<real>)
    requires forall i :: 0 <= i < |xs| ==> xs[i] == 1.0
    ensures Sum(xs) == |xs| as real
  {
    SumConstant(xs, 1.0);
  }

  /** Appending elements that were already seen does not change the
      de-duplication. */
  lemma {:induction false} DedupeSeenSuffix<T(!new)>(xs: seq<T>, ys: seq<T>)
    requires forall y :: y in ys ==> y in xs
    ensures Dedupe(xs + ys) == Dedupe(xs)
  {
    if |ys| > 0 {
      var ys' := ys[..|ys| - 1];
      assert (xs + ys)[..|xs + ys| - 1] == xs + ys';
      DedupeSeenSuffix(xs, ys');
      var zs := xs + ys;
      assert zs[|zs| - 1] == ys[|ys| - 1];
      assert ys[|ys| - 1] in xs;
      assert zs[|zs| - 1] in Dedupe(zs[..|zs| - 1]);
    } else {
      assert xs + ys == xs;
    }
  }
}

=== FILE: settle.dfy ===
/** Settlement: reading a finished event's scores and grading the event's
    still-upcoming picks. */
module Settle {
  import opened Wrappers
  import opened JsNum
  import opened Picks

  const Draw: string := "Draw"

  /** The `CASE` of the `UPDATE`: how one pick on the event is graded once
      the final score is known. A selection naming neither side nor the
      draw keeps its status. */
  function Grade(selection: string, homeName: string, awayName: string, home: real, away: real, current: Status): Status
  {
    if selection == Draw then (if home == away then Won else Lost)
    else if selection == homeName then (if home > away then Won else Lost)
    else if selection == awayName then (if away > home then Won else Lost)
    else current
  }

  /** A pick naming the draw or one of the sides is always graded. */
  lemma GradeDecides(selection: string, homeName: string, awayName: string, home: real, away: real)
    requires selection in {Draw, homeName, awayName}
    ensures Grade(selection, homeName, awayName, home, away, Upcoming) in {Won, Lost}
  {
  }

  /** The result of the match, as a reference: the winning side's name, or
      "Draw" when the scores are level. */
  function Winner(homeName: string, awayName: string, home: real, away: real): string
  {
    if home > away then homeName else if away > home then awayName else Draw
  }

  /** The grading truth table, against the match result: when the three
      names differ, a pick on one of them is won exactly when it names the
      winner and lost otherwise; any other pick keeps its status; `push` is
      never produced. */
  lemma GradeMatchesWinner(selection: string, homeName: string, awayName: string, home: real, away: real, current: Status)
    requires homeName != awayName && homeName != Draw && awayName != Draw
    ensures selection in {Draw, homeName, awayName} ==>
      (Grade(selection, homeName, awayName, home, away, current) == Won <==> selection == Winner(homeName, awayName, home, away))
      && Grade(selection, homeName, awayName, home, away, current) in {Won, Lost}
    ensures selection !in {Draw, homeName, awayName} ==> Grade(selection, homeName, awayName, home, away, current) == current
    ensures Grade(selection, homeName, awayName, home, away, current) == Push ==> current == Push
  {
  }

  /** The `UPDATE ... WHERE event_id = ? AND status = 'upcoming'` on one row:
      an upcoming pick on the event is graded and gets the scores and the
      resolution time, whatever the grade; every other row is left as it
      is. */
  function SettleRow(p: StoredPick, eventId: string, homeName: string, awayName: string, home: real, away: real, now: string): StoredPick
  {
    if p.row.eventId == eventId && p.status == Upcoming then
      StoredPick(p.row, Grade(p.row.selection, homeName, awayName, home, away, p.status), Some(home), Some(away), Some(now))
    else p
  }

  /** The `UPDATE` over the whole table. */
  function SettleEvent(store: Store, eventId: string, homeName: string, awayName: string, home: real, away: real, now: string): (r: Store)
    ensures |r| == |store|
    ensures forall k :: 0 <= k < |store| ==> r[k].row == store[k].row
    ensures forall k :: 0 <= k < |store| && (store[k].status.Terminal() || store[k].row.eventId != eventId) ==> r[k] == store[k]
    ensures forall k :: 0 <= k < |store| && r[k].status != store[k].status ==>
      store[k].status == Upcoming && (r[k].status == Won || r[k].status == Lost)
    ensures forall k :: 0 <= k < |store| && store[k].row.eventId == eventId && store[k].status == Upcoming ==>
      && r[k].status == Grade(store[k].row.selection, homeName, awayName, home, away, Upcoming)
      && r[k].scoreHome == Some(home) && r[k].scoreAway == Some(away) && r[k].resolvedAt == Some(now)
  {
    seq(|store|, k requires 0 <= k < |store| => SettleRow(store[k], eventId, homeName, awayName, home, away, now))
  }

  /** Settling the same result twice changes nothing the second time. */
  lemma SettleIdempotent(store: Store, eventId: string, homeName: string, awayName: string, home: real, away: real, now: string)
    ensures var once := SettleEvent(store, eventId, homeName, awayName, home, away, now);
      SettleEvent(once, eventId, homeName, awayName, home, away, now) == once
  {
  }

  /** Once a pick on the event is graded (its selection names the draw or a
      side), no later settlement of that event, with any scores, changes
      it again. */
  lemma GradedIsFinal(store: Store, eventId: string, homeName: string, awayName: string, home: real, away: real, now: string,
                      home2: real, away2: real, now2: string, k: int)
    requires 0 <= k < |store| && store[k].row.eventId == eventId && store[k].status == Upcoming
    requires store[k].row.selection in {Draw, homeName, awayName}
    ensures var once := SettleEvent(store, eventId, homeName, awayName, home, away, now);
      SettleEvent(once, eventId, homeName, awayName, home2, away2, now2)[k] == once[k]
  {
  }

  /** One entry of a scores response: a team and its score as `Number`
      read it. */
  datatype ScoreEntry = ScoreEntry(name: string, score: Num)

  /** One event of a scores response. */
  datatype ScoreReport = ScoreReport(id: string, completed: bool, home: string, away: string, scores: seq<ScoreEntry>)

  /** The score of the last entry naming `name`, as a reference. */
  function LastScore(scores: seq<ScoreEntry>, name: string): (r: Option<Num>)
    ensures r.None? <==> forall i :: 0 <= i < |scores| ==> scores[i].name != name
    ensures r.Some? ==> exists i :: (0 <= i < |scores| && scores[i].name == name && r.value == scores[i].score
      && forall j :: i < j < |scores| ==> scores[j].name != name)
  {
    if |scores| == 0 then None
    else if scores[|scores| - 1].name == name then Some(scores[|scores| - 1].score)
    else
      var init := scores[..|scores| - 1];
      assert forall i :: 0 <= i < |init| ==> init[i] == scores[i];
      LastScore(init, name)
  }

  /** `for (const s of scores) map.set(s.name, Number(s.score))`: a later
      entry for the same name overwrites an earlier one. */
  function ScoreMap(scores: seq<ScoreEntry>): (m: map<string, Num>)
    ensures forall n :: n in m <==> LastScore(scores, n).Some?
    ensures forall n :: n in m ==> m[n] == LastScore(scores, n).value
  {
    if |scores| == 0 then map[]
    else
      var s := scores[|scores| - 1];
      ScoreMap(scores[..|scores| - 1])[s.name := s.score]
  }

  /** `interpretScores`: both teams' scores when both are finite numbers;
      a missing team reads as `Number(undefined)`, which is NaN. */
  function InterpretScores(homeName: string, awayName: string, scores: seq<ScoreEntry>): (r: Option<(real, real)>)
    ensures r.Some? <==>
      && LastScore(scores, homeName).Some? && LastScore(scores, homeName).value.Fin?
      && LastScore(scores, awayName).Some? && LastScore(scores, awayName).value.Fin?
    ensures r.Some? ==> r.value == (LastScore(scores, homeName).value.v, LastScore(scores, awayName).value.v)
  {
    var m := ScoreMap(scores);
    var home := if homeName in m then m[homeName] else NaN;
    var away := if awayName in m then m[awayName] else NaN;
    if home.Fin? && away.Fin? then Some((home.v, away.v)) else None
  }

  /** The loop over one scores response: unfinished events and events
      without two readable scores are skipped, every other event is
      settled. */
  function ApplyReports(store: Store, reports: seq<ScoreReport>, now: string): (r: Store)
    ensures |r| == |store|
  {
    if |reports| == 0 then store
    else
      var init := reports[..|reports| - 1];
      var ev := reports[|reports| - 1];
      var s := ApplyReports(store, init, now);
      if !ev.completed then s
      else
        match InterpretScores(ev.home, ev.away, ev.scores)
        case None => s
        case Some((home, away)) => SettleEvent(s, ev.id, ev.home, ev.away, home, away, now)
  }

  /** The update the last report of a response makes: a report that settles
      its event runs the event's `UPDATE` on the table the earlier reports
      left; any other report changes nothing. */
  lemma ApplyReportsStep(store: Store, reports: seq<ScoreReport>, now: string)
    requires |reports| > 0
    ensures var ev := reports[|reports| - 1];
      Settles(ev) ==> (ApplyReports(store, reports, now) ==
        SettleEvent(ApplyReports(store, reports[..|reports| - 1], now), ev.id, ev.home, ev.away,
                    InterpretScores(ev.home, ev.away, ev.scores).value.0,
                    InterpretScores(ev.home, ev.away, ev.scores).value.1, now))
    ensures !Settles(reports[|reports| - 1]) ==>
      ApplyReports(store, reports, now) == ApplyReports(store, reports[..|reports| - 1], now)
  {
  }

  /** Row `k` after the `UPDATE` is that row settled on its own. */
  lemma SettleEventAt(store: Store, eventId: string, homeName: string, awayName: string, home: real, away: real, now: string, k: int)
    requires 0 <= k < |store|
    ensures SettleEvent(store, eventId, homeName, awayName, home, away, now)[k]
         == SettleRow(store[k], eventId, homeName, awayName, home, away, now)
  {
  }

  /** Row `k` after the last report, against row `k` before it. */
  lemma ApplyReportsLast(store: Store, reports: seq<ScoreReport>, now: string, k: int)
    requires 0 <= k < |store| && |reports| > 0
    ensures var ev := reports[|reports| - 1];
      var before := ApplyReports(store, reports[..|reports| - 1], now)[k];
      var after := ApplyReports(store, reports, now)[k];
      && (before.status.Terminal() ==> after == before)
      && (Settles(ev) && ev.id == before.row.eventId && before.status == Upcoming ==>
            Recorded(after, now)
            && after.status == Grade(before.row.selection, ev.home, ev.away,
                                     InterpretScores(ev.home, ev.away, ev.scores).value.0,
                                     InterpretScores(ev.home, ev.away, ev.scores).value.1, Upcoming))
      && (!Settles(ev) || ev.id != before.row.eventId ==> after == before)
  {
    var ev := reports[|reports| - 1];
    var s := ApplyReports(store, reports[..|reports| - 1], now);
    ApplyReportsStep(store, reports, now);
    if Settles(ev) {
      var scores := InterpretScores(ev.home, ev.away, ev.scores).value;
      SettleEventAt(s, ev.id, ev.home, ev.away, scores.0, scores.1, now, k);
    }
  }

  /** What a scores response can do to one row: its pick data never
      changes; a terminal row stays as it was; a status only moves from
      upcoming to won or lost; a row whose event no report settles is
      untouched; a changed row carries the scores and this run's time. */
  lemma {:induction false} ApplyReportsRow(store: Store, reports: seq<ScoreReport>, now: string, k: int)
    requires 0 <= k < |store|
    ensures var before, after := store[k], ApplyReports(store, reports, now)[k];
      && after.row == before.row
      && (before.status.Terminal() ==> after == before)
      && (after.status != before.status ==> before.status == Upcoming && (after.status == Won || after.status == Lost))
      && (Unreported(reports, before.row.eventId) ==> after == before)
      && (after != before ==> Recorded(after, now))
  {
    if |reports| > 0 {
      var init := reports[..|reports| - 1];
      var ev := reports[|reports| - 1];
      ApplyReportsRow(store, init, now, k);
      ApplyReportsLast(store, reports, now, k);
      if Unreported(reports, store[k].row.eventId) {
        assert forall e :: 0 <= e < |init| ==> init[e] == reports[e];
        assert Unreported(init, store[k].row.eventId);
        assert !Settles(ev) || ev.id != store[k].row.eventId;
      }
    }
  }

  /** `ApplyReportsRow` for every row of the table. */
  lemma ApplyReportsFrame(store: Store, reports: seq<ScoreReport>, now: string)
    ensures var r := ApplyReports(store, reports, now);
      && (forall k :: 0 <= k < |store| ==> r[k].row == store[k].row)
      && (forall k :: 0 <= k < |store| && store[k].status.Terminal() ==> r[k] == store[k])
      && (forall k :: 0 <= k < |store| && r[k].status != store[k].status ==>
            store[k].status == Upcoming && (r[k].status == Won || r[k].status == Lost))
      && (forall k :: 0 <= k < |store| && Unreported(reports, store[k].row.eventId) ==> r[k] == store[k])
      && (forall k :: 0 <= k < |store| && r[k] != store[k] ==> Recorded(r[k], now))
  {
    forall k | 0 <= k < |store| {
      ApplyReportsRow(store, reports, now, k);
    }
  }

  /** A report that settles an event records the scores and the resolution
      time on every row of the event that was upcoming. */
  lemma {:induction false} ApplyReportsRecords(store: Store, reports: seq<ScoreReport>, now: string, k: int, e: int)
    requires 0 <= k < |store| && store[k].status == Upcoming
    requires 0 <= e < |reports| && Settles(reports[e]) && reports[e].id == store[k].row.eventId
    ensures Recorded(ApplyReports(store, reports, now)[k], now)
  {
    var init := reports[..|reports| - 1];
    var before := ApplyReports(store, init, now)[k];
    if e < |init| {
      assert init[e] == reports[e];
      ApplyReportsRecords(store, init, now, k, e);
      RecordedKept(store, reports, now, k);
    } else {
      assert e == |reports| - 1;
      ApplyReportsRow(store, init, now, k);
      assert before.row == store[k].row;
      if before.status == Upcoming {
        ApplyReportsLast(store, reports, now, k);
      } else {
        assert before != store[k];
        RecordedKept(store, reports, now, k);
      }
    }
  }

  /** A row that already carries this run's scores keeps carrying them
      after one more report. */
  lemma RecordedKept(store: Store, reports: seq<ScoreReport>, now: string, k: int)
    requires 0 <= k < |store| && |reports| > 0
    requires Recorded(ApplyReports(store, reports[..|reports| - 1], now)[k], now)
    ensures Recorded(ApplyReports(store, reports, now)[k], now)
  {
    ApplyReportsLast(store, reports, now, k);
  }

  /** A report that settles an event grades every pick on it that was
      upcoming and names the draw or one of the report's teams: the pick
      ends won or lost. */
  lemma {:induction false} ApplyReportsGrades(store: Store, reports: seq<ScoreReport>, now: string, k: int, e: int)
    requires 0 <= k < |store| && store[k].status == Upcoming
    requires 0 <= e < |reports| && Settles(reports[e]) && reports[e].id == store[k].row.eventId
    requires store[k].row.selection in {Draw, reports[e].home, reports[e].away}
    ensures ApplyReports(store, reports, now)[k].status in {Won, Lost}
  {
    var init := reports[..|reports| - 1];
    var before := ApplyReports(store, init, now)[k];
    var after := ApplyReports(store, reports, now)[k];
    ApplyReportsRow(store, init, now, k);
    ApplyReportsLast(store, reports, now, k);
    if e < |init| {
      assert init[e] == reports[e];
      ApplyReportsGrades(store, init, now, k, e);
      assert before.status.Terminal();
      assert after == before;
    } else {
      var ev := reports[e];
      assert e == |reports| - 1;
      assert before.row == store[k].row;
      assert Settles(ev) && ev.id == before.row.eventId;
      if before.status == Upcoming {
        var scores := InterpretScores(ev.home, ev.away, ev.scores).value;
        GradeDecides(before.row.selection, ev.home, ev.away, scores.0, scores.1);
        assert after.status == Grade(before.row.selection, ev.home, ev.away, scores.0, scores.1, Upcoming);
      } else {
        assert before.status != store[k].status;
        assert before.status.Terminal();
        assert after == before;
      }
    }
  }

  /** The row carries both scores and the resolution time of this run. */
  predicate Recorded(p: StoredPick, now: string) {
    p.scoreHome.Some? && p.scoreAway.Some? && p.resolvedAt == Some(now)
  }

  /** No report settles the event. */
  predicate Unreported(reports: seq<ScoreReport>, eventId: string) {
    forall e :: 0 <= e < |reports| && Settles(reports[e]) ==> reports[e].id != eventId
  }

  /** Whether a report leads to an update. */
  predicate Settles(ev: ScoreReport) {
    ev.completed && InterpretScores(ev.home, ev.away, ev.scores).Some?
  }
}

=== FILE: sharp.dfy ===
/** Classification of bookmakers as sharp (trusted for fair probabilities)
    or soft, by a case-insensitive substring test against an allow-list. */
module Sharp {
  import opened Text

  /** The allow-list of the Worker build. */
  const WorkerHints: seq<string> :=
    ["pinnacle", "betfair", "betfairex", "betfair_ex", "sbo", "sbobet", "matchbook", "circa"]

  /** The allow-list of the Express build; it lacks "betfairex". */
  const LegacyHints: seq<string> :=
    ["pinnacle", "betfair", "betfair_ex", "sbo", "sbobet", "matchbook", "circa"]

  /** The hints that decide: every other hint in either list has one of these
      as a substring, so it can never match where these do not. */
  const CoreHints: seq<string> := ["pinnacle", "betfair", "sbo", "matchbook", "circa"]

  /** `isSharp(key, title)`: some hint occurs in the lower-cased
      `key + " " + title`. A missing key or title is the empty string. */
  predicate IsSharp(hints: seq<string>, key: string, title: string) {
    MatchesAny(Lower(key + " " + title), hints)
  }

  /** `hints.some(h => s.includes(h))` */
  predicate MatchesAny(s: string, hints: seq<string>) {
    exists i | 0 <= i < |hints| :: Contains(s, hints[i])
  }

  predicate SpaceFree(hints: seq<string>) {
    forall i :: 0 <= i < |hints| ==> ' ' !in hints[i]
  }

  /** For hints without spaces, joining key and title creates no match of its
      own: a bookmaker is sharp exactly when its key or its title, lower-cased,
      contains a hint. */
  lemma IsSharpByKeyOrTitle(hints: seq<string>, key: string, title: string)
    requires SpaceFree(hints)
    ensures IsSharp(hints, key, title) <==>
      exists i :: 0 <= i < |hints| && (Contains(Lower(key), hints[i]) || Contains(Lower(title), hints[i]))
  {
    var s := Lower(key + " " + title);
    LowerAppend(key, " " + title);
    LowerAppend(" ", title);
    assert Lower(" ") == " ";
    assert s == Lower(key) + [' '] + Lower(title);
    forall i | 0 <= i < |hints| && Contains(s, hints[i])
      ensures Contains(Lower(key), hints[i]) || Contains(Lower(title), hints[i])
    {
      ContainsAcrossSeparator(Lower(key), ' ', Lower(title), hints[i]);
    }
    forall i | 0 <= i < |hints| && (Contains(Lower(key), hints[i]) || Contains(Lower(title), hints[i]))
      ensures Contains(s, hints[i])
    {
      if Contains(Lower(key), hints[i]) {
        ContainsInfix([], Lower(key), [' '] + Lower(title), hints[i]);
        assert [] + Lower(key) + ([' '] + Lower(title)) == s;
      } else {
        ContainsInfix(Lower(key) + [' '], Lower(title), [], hints[i]);
        assert Lower(key) + [' '] + Lower(title) + [] == s;
      }
    }
  }

  /** Hints that never occur in a bookmaker's key and title do not change its
      classification. */
  lemma ExtraHintsIrrelevant(hints: seq<string>, extra: seq<string>, key: string, title: string)
    requires forall j :: 0 <= j < |extra| ==> !Contains(Lower(key + " " + title), extra[j])
    ensures IsSharp(hints + extra, key, title) <==> IsSharp(hints, key, title)
  {
    var s := Lower(key + " " + title);
    forall i | 0 <= i < |hints + extra| && Contains(s, (hints + extra)[i])
      ensures i < |hints| && Contains(s, hints[i])
    {
    }
    forall i | 0 <= i < |hints| && Contains(s, hints[i])
      ensures Contains(s, (hints + extra)[i])
    {
    }
  }

  lemma Prefix(s: string, h: string)
    requires |h| <= |s| && s[..|h|] == h
    ensures Contains(s, h)
  {
    assert OccursAt(s, h, 0);
  }

  /** Every hint of `hints` contains some hint of `core`. */
  predicate CoveredBy(hints: seq<string>, core: seq<string>) {
    forall i :: 0 <= i < |hints| ==> exists j :: 0 <= j < |core| && Contains(hints[i], core[j])
  }

  lemma MatchesCovered(hints: seq<string>, core: seq<string>, s: string)
    requires CoveredBy(hints, core)
    requires MatchesAny(s, hints)
    ensures MatchesAny(s, core)
  {
    var i :| 0 <= i < |hints| && Contains(s, hints[i]);
    var j :| 0 <= j < |core| && Contains(hints[i], core[j]);
    ContainsTransitive(s, hints[i], core[j]);
  }

  lemma MatchesSublist(hints: seq<string>, core: seq<string>, s: string)
    requires forall i :: 0 <= i < |core| ==> core[i] in hints
    requires MatchesAny(s, core)
    ensures MatchesAny(s, hints)
  {
    var j :| 0 <= j < |core| && Contains(s, core[j]);
    var i :| 0 <= i < |hints| && hints[i] == core[j];
  }

  /** If every hint of `hints` contains some hint of `core`, and every hint of
      `core` is in `hints`, the two lists classify every bookmaker alike. */
  lemma SameClassification(hints: seq<string>, core: seq<string>, key: string, title: string)
    requires forall i :: 0 <= i < |core| ==> core[i] in hints
    requires CoveredBy(hints, core)
    ensures IsSharp(hints, key, title) <==> IsSharp(core, key, title)
  {
    SameMatches(hints, core, Lower(key + " " + title));
  }

  /** `SameClassification` for one lower-cased string. */
  lemma SameMatches(hints: seq<string>, core: seq<string>, s: string)
    requires forall i :: 0 <= i < |core| ==> core[i] in hints
    requires CoveredBy(hints, core)
    ensures MatchesAny(s, hints) <==> MatchesAny(s, core)
  {
    if MatchesAny(s, hints) {
      MatchesCovered(hints, core, s);
    }
    if MatchesAny(s, core) {
      MatchesSublist(hints, core, s);
    }
  }

  lemma SelfContains(h: string)
    ensures Contains(h, h)
  {
    assert OccursAt(h, h, 0);
  }

  lemma WorkerCovered()
    ensures CoveredBy(WorkerHints, CoreHints)
    ensures forall i :: 0 <= i < |CoreHints| ==> CoreHints[i] in WorkerHints
  {
    var w, c := WorkerHints, CoreHints;
    SelfContains(c[0]);
    SelfContains(c[1]);
    SelfContains(c[2]);
    SelfContains(c[3]);
    SelfContains(c[4]);
    Prefix(w[2], c[1]);
    Prefix(w[3], c[1]);
    Prefix(w[5], c[2]);
    assert w[0] == c[0] && w[1] == c[1] && w[4] == c[2] && w[6] == c[3] && w[7] == c[4];
  }

  lemma LegacyCovered()
    ensures CoveredBy(LegacyHints, CoreHints)
    ensures forall i :: 0 <= i < |CoreHints| ==> CoreHints[i] in LegacyHints
  {
    var w, c := LegacyHints, CoreHints;
    SelfContains(c[0]);
    SelfContains(c[1]);
    SelfContains(c[2]);
    SelfContains(c[3]);
    SelfContains(c[4]);
    Prefix(w[2], c[1]);
    Prefix(w[4], c[2]);
    assert w[0] == c[0] && w[1] == c[1] && w[3] == c[2] && w[5] == c[3] && w[6] == c[4];
  }

  /** The Worker list and the Express list classify every bookmaker the same
      way, and both agree with the five core hints: "betfairex" and
      "betfair_ex" contain "betfair", "sbobet" contains "sbo". */
  lemma HintListsAgree(key: string, title: string)
    ensures IsSharp(WorkerHints, key, title) <==> IsSharp(CoreHints, key, title)
    ensures IsSharp(LegacyHints, key, title) <==> IsSharp(CoreHints, key, title)
  {
    WorkerCovered();
    LegacyCovered();
    SameClassification(WorkerHints, CoreHints, key, title);
    SameClassification(LegacyHints, CoreHints, key, title);
  }

  /** A string that lacks the first character of a non-empty pattern does not
      contain the pattern. */
  lemma NoFirstChar(s: string, h: string)
    requires |h| > 0 && h[0] !in s
    ensures !Contains(s, h)
  {
    forall i | 0 <= i <= |s|
      ensures !OccursAt(s, h, i)
    {
      if i + |h| <= |s| {
        assert s[i..i + |h|][0] == s[i];
      }
    }
  }
}

=== FILE: text.dfy ===
/** String vocabulary: `toLowerCase`, `includes`, the default ordering
    `Array.prototype.sort` uses on strings, and `join`. */
module Text {

  /** `toLowerCase` on one character; only the ASCII letters are mapped. */
  function LowerChar(c: char): char
  {
    if 'A' <= c <= 'Z' then (c as int + 32) as char else c
  }

  /** `s.toLowerCase()`: every upper-case ASCII letter becomes its
      lower-case letter, 32 code units further on, and every other
      character is kept, so no upper-case letter is left. */
  function Lower(s: string): (r: string)
    ensures |r| == |s|
    ensures forall i :: 0 <= i < |s| ==> r[i] == LowerChar(s[i])
    ensures forall i :: 0 <= i < |s| && 'A' <= s[i] <= 'Z' ==> r[i] as int == s[i] as int + 32
    ensures forall i :: 0 <= i < |s| && !('A' <= s[i] <= 'Z') ==> r[i] == s[i]
    ensures forall i :: 0 <= i < |r| ==> !('A' <= r[i] <= 'Z')
  {
    seq(|s|, i requires 0 <= i < |s| => LowerChar(s[i]))
  }

  /** Lower-casing twice is lower-casing once. */
  lemma LowerIdempotent(s: string)
    ensures Lower(Lower(s)) == Lower(s)
  {
  }

  /** Lower-casing commutes with concatenation. */
  lemma LowerAppend(a: string, b: string)
    ensures Lower(a + b) == Lower(a) + Lower(b)
  {
  }

  /** `h` occurs in `s` starting at position `i`. */
  predicate OccursAt(s: string, h: string, i: int) {
    0 <= i && i + |h| <= |s| && s[i..i + |h|] == h
  }

  /** `s.includes(h)` */
  predicate Contains(s: string, h: string) {
    exists i | 0 <= i <= |s| :: OccursAt(s, h, i)
  }

  /** An occurrence in a part is an occurrence in the whole. */
  lemma ContainsInfix(a: string, s: string, b: string, h: string)
    requires Contains(s, h)
    ensures Contains(a + s + b, h)
  {
    var i :| 0 <= i <= |s| && OccursAt(s, h, i);
    assert (a + s + b)[|a| + i..|a| + i + |h|] == s[i..i + |h|];
    assert OccursAt(a + s + b, h, |a| + i);
  }

  /** Containment is transitive: a substring of a substring is a substring. */
  lemma ContainsTransitive(s: string, m: string, h: string)
    requires Contains(s, m) && Contains(m, h)
    ensures Contains(s, h)
  {
    var i :| 0 <= i <= |s| && OccursAt(s, m, i);
    var j :| 0 <= j <= |m| && OccursAt(m, h, j);
    assert forall k :: 0 <= k < |h| ==> s[i + j + k] == m[j + k] == h[k];
    assert OccursAt(s, h, i + j);
  }

  /** A pattern that occurs in `a + [sep] + b` occurs in `a`, occurs in `b`,
      or contains the separator: joining two strings with a separator creates
      no new matches for patterns free of it. */
  lemma ContainsAcrossSeparator(a: string, sep: char, b: string, h: string)
    requires Contains(a + [sep] + b, h)
    ensures Contains(a, h) || Contains(b, h) || sep in h
  {
    var s := a + [sep] + b;
    var i :| 0 <= i <= |s| && OccursAt(s, h, i);
    if |h| == 0 {
      assert OccursAt(a, h, 0);
    } else if i + |h| <= |a| {
      assert s[i..i + |h|] == a[i..i + |h|];
      assert OccursAt(a, h, i);
    } else if i > |a| {
      assert s[i..i + |h|] == b[i - |a| - 1..i - |a| - 1 + |h|];
      assert OccursAt(b, h, i - |a| - 1);
    } else {
      assert h[|a| - i] == s[i..i + |h|][|a| - i] == s[|a|];
    }
  }

  /** The code-unit order JavaScript's default `sort` uses on strings. */
  predicate LexLess(a: string, b: string)
  {
    if |a| == 0 then |b| > 0
    else if |b| == 0 then false
    else if a[0] != b[0] then a[0] < b[0]
    else LexLess(a[1..], b[1..])
  }

  predicate LexLessEq(a: string, b: string) {
    a == b || LexLess(a, b)
  }

  lemma {:induction false} LexLessIrreflexive(a: string)
    ensures !LexLess(a, a)
  {
    if |a| > 0 {
      LexLessIrreflexive(a[1..]);
    }
  }

  lemma {:induction false} LexLessTransitive(a: string, b: string, c: string)
    requires LexLess(a, b) && LexLess(b, c)
    ensures LexLess(a, c)
  {
    if |a| > 0 && |b| > 0 && |c| > 0 && a[0] == b[0] == c[0] {
      LexLessTransitive(a[1..], b[1..], c[1..]);
    }
  }

  lemma {:induction false} LexLessTotal(a: string, b: string)
    ensures a == b || LexLess(a, b) || LexLess(b, a)
  {
    if |a| > 0 && |b| > 0 && a[0] == b[0] {
      LexLessTotal(a[1..], b[1..]);
      if a[1..] == b[1..] {
        assert a == [a[0]] + a[1..] && b == [b[0]] + b[1..];
      }
    }
  }

  predicate Sorted(xs: seq<string>) {
    forall i, j :: 0 <= i < j < |xs| ==> LexLessEq(xs[i], xs[j])
  }

  /** Inserts `x` into a sorted sequence at its place. */
  function Insert(x: string, xs: seq<string>): (r: seq<string>)
    requires Sorted(xs)
    ensures Sorted(r)
    ensures multiset(r) == multiset(xs) + multiset{x}
  {
    if |xs| == 0 then [x]
    else if LexLessEq(x, xs[0]) then
      BelowHead(x, xs);
      ConsSorted(x, xs);
      [x] + xs
    else
      assert xs == [xs[0]] + xs[1..];
      var rest := Insert(x, xs[1..]);
      LexLessTotal(x, xs[0]);
      HeadBelowInsert(x, xs, rest);
      ConsSorted(xs[0], rest);
      [xs[0]] + rest
  }

  /** A sorted sequence stays sorted under a new first element that is at
      most every element. */
  lemma ConsSorted(y: string, ys: seq<string>)
    requires Sorted(ys) && forall j :: 0 <= j < |ys| ==> LexLessEq(y, ys[j])
    ensures Sorted([y] + ys)
  {
    var r := [y] + ys;
    forall i, j | 0 <= i < j < |r|
      ensures LexLessEq(r[i], r[j])
    {
      if i > 0 {
        assert r[i] == ys[i - 1] && r[j] == ys[j - 1];
      } else {
        assert r[j] == ys[j - 1];
      }
    }
  }

  /** What is at most the head of a sorted sequence is at most all of it. */
  lemma BelowHead(x: string, xs: seq<string>)
    requires Sorted(xs) && |xs| > 0 && LexLessEq(x, xs[0])
    ensures forall j :: 0 <= j < |xs| ==> LexLessEq(x, xs[j])
  {
    forall j | 0 <= j < |xs|
      ensures LexLessEq(x, xs[j])
    {
      assert LexLessEq(xs[0], xs[j]);
      if x != xs[0] && xs[0] != xs[j] {
        LexLessTransitive(x, xs[0], xs[j]);
      }
    }
  }

  /** The head of a sorted sequence is at most everything in the rest with
      a larger `x` inserted. */
  lemma HeadBelowInsert(x: string, xs: seq<string>, rest: seq<string>)
    requires Sorted(xs) && |xs| > 0 && LexLess(xs[0], x)
    requires multiset(rest) == multiset(xs[1..]) + multiset{x}
    ensures forall j :: 0 <= j < |rest| ==> LexLessEq(xs[0], rest[j])
  {
    forall j | 0 <= j < |rest|
      ensures LexLessEq(xs[0], rest[j])
    {
      assert rest[j] in multiset(rest);
      assert rest[j] == x || rest[j] in xs[1..];
      if rest[j] != x {
        var k :| 0 <= k < |xs[1..]| && xs[1..][k] == rest[j];
        assert xs[k + 1] == rest[j];
      }
    }
  }

  /** `Array.prototype.sort()` with the default comparator. */
  function Sort(xs: seq<string>): (r: seq<string>)
    ensures Sorted(r)
    ensures multiset(r) == multiset(xs)
  {
    if |xs| == 0 then []
    else
      assert xs == xs[..|xs| - 1] + [xs[|xs| - 1]];
      Insert(xs[|xs| - 1], Sort(xs[..|xs| - 1]))
  }

  /** `xs.join(sep)`: empty for no parts, and otherwise starting with the
      first part. */
  function Join(xs: seq<string>, sep: string): (r: string)
    ensures |xs| == 0 ==> r == ""
    ensures |xs| > 0 ==> xs[0] <= r
    ensures |xs| == 1 ==> r == xs[0]
    ensures |xs| > 1 ==> |r| >= |xs[0]| + |sep|
  {
    if |xs| == 0 then ""
    else if |xs| == 1 then xs[0]
    else xs[0] + sep + Join(xs[1..], sep)
  }

  /** Every part occurs in the joined string. */
  lemma {:induction false} JoinKeepsParts(xs: seq<string>, sep: string)
    ensures forall i :: 0 <= i < |xs| ==> Contains(Join(xs, sep), xs[i])
  {
    if |xs| == 1 {
      assert OccursAt(xs[0], xs[0], 0);
    } else if |xs| > 1 {
      var rest := Join(xs[1..], sep);
      JoinKeepsParts(xs[1..], sep);
      assert OccursAt(xs[0] + sep + rest, xs[0], 0);
      forall i | 1 <= i < |xs|
        ensures Contains(Join(xs, sep), xs[i])
      {
        assert xs[i] == xs[1..][i - 1];
        ContainsInfix(xs[0] + sep, rest, "", xs[i]);
        assert xs[0] + sep + rest + "" == Join(xs, sep);
      }
    }
  }

  /** Appending a part appends the separator and that part: the parts stay
      in order, with exactly one separator between neighbours. */
  lemma {:induction false} JoinSnoc(xs: seq<string>, x: string, sep: string)
    requires |xs| > 0
    ensures Join(xs + [x], sep) == Join(xs, sep) + sep + x
  {
    var ys := xs + [x];
    if |xs| > 1 {
      assert ys[0] == xs[0] && ys[1..] == xs[1..] + [x];
      JoinSnoc(xs[1..], x, sep);
      assert Join(ys, sep) == xs[0] + sep + Join(xs[1..] + [x], sep);
    } else {
      assert ys == [xs[0], x];
      assert Join(ys, sep) == xs[0] + sep + Join([x], sep);
    }
  }
}

=== FILE: vig.dfy ===
/** Proportional vig removal: decimal prices become implied probabilities,
    which are rescaled to sum to one. */
module Vig {
  import opened Wrappers
  import opened Seqs
  import opened JsNum

  /** `decToProb(o)`: the implied probability of a decimal price. A price of
      1 or less is treated as malformed and implies nothing. */
  function DecToProb(o: real): (p: real)
    ensures 0.0 <= p < 1.0
    ensures o > 1.0 ==> p * o == 1.0
    ensures o <= 1.0 ==> p == 0.0
  {
    if o <= 1.0 then 0.0 else 1.0 / o
  }

  /** `decToProb` applied to a price on which `isNaN` is false: an infinite
      price implies probability 0 (`1 / Infinity`, or `-Infinity <= 1`). */
  function DecToProbNum(o: Num): (p: real)
    requires !o.NaN?
    ensures 0.0 <= p < 1.0
    ensures p > 0.0 <==> o.Fin? && o.v > 1.0
    ensures o.Fin? ==> p == DecToProb(o.v)
  {
    match o
    case Fin(v) => DecToProb(v)
    case _ => 0.0
  }

  /** `odds.map(decToProb)` */
  function Implied(odds: seq<real>): (ps: seq<real>)
    ensures |ps| == |odds|
    ensures forall i :: 0 <= i < |odds| ==> ps[i] == DecToProb(odds[i])
  {
    seq(|odds|, i requires 0 <= i < |odds| => DecToProb(odds[i]))
  }

  function ImpliedNum(odds: seq<Num>): (ps: seq<real>)
    requires forall i :: 0 <= i < |odds| ==> !odds[i].NaN?
    ensures |ps| == |odds|
    ensures forall i :: 0 <= i < |odds| ==> ps[i] == DecToProbNum(odds[i])
  {
    seq(|odds|, i requires 0 <= i < |odds| => DecToProbNum(odds[i]))
  }

  /** A probability vector: every entry in [0, 1], summing to exactly 1. */
  predicate IsDistribution(xs: seq<real>) {
    AllUnit(xs) && Sum(xs) == 1.0
  }

  /** `r` is a rescaling of `ps`: all ratios between entries are kept. */
  predicate Proportional(r: seq<real>, ps: seq<real>)
    requires |r| == |ps|
  {
    forall i, j :: 0 <= i < |r| && 0 <= j < |r| ==> r[i] * ps[j] == r[j] * ps[i]
  }

  /** No term of a non-negative sequence exceeds its sum. */
  lemma {:induction false} TermAtMostSum(xs: seq<real>, k: int)
    requires AllNonNeg(xs) && 0 <= k < |xs|
    ensures xs[k] <= Sum(xs)
  {
    var init := xs[..|xs| - 1];
    assert forall i :: 0 <= i < |init| ==> init[i] == xs[i];
    SumNonNeg(init);
    if k < |xs| - 1 {
      TermAtMostSum(init, k);
    }
  }

  /** Rescaling by a non-zero total keeps every ratio and every zero. */
  lemma ScaleProportional(ps: seq<real>, total: real)
    requires total != 0.0
    ensures Proportional(Scale(ps, total), ps)
    ensures forall i :: 0 <= i < |ps| ==> (Scale(ps, total)[i] == 0.0 <==> ps[i] == 0.0)
  {
    var r := Scale(ps, total);
    forall i, j | 0 <= i < |r| && 0 <= j < |r|
      ensures r[i] * ps[j] == r[j] * ps[i]
    {
      assert r[i] == ps[i] / total && r[j] == ps[j] / total;
      assert (ps[i] / total) * ps[j] == (ps[i] * ps[j]) / total;
      assert (ps[j] / total) * ps[i] == (ps[i] * ps[j]) / total;
    }
  }

  lemma DivUnit(x: real, t: real)
    requires 0.0 <= x <= t && t > 0.0
    ensures 0.0 <= x / t <= 1.0
  {
    var q := x / t;
    assert q * t == x;
    assert (1.0 - q) * t == t - x;
  }

  /** Rescaling a non-negative sequence by its positive sum yields a
      probability vector. */
  lemma ScaleBySumIsDistribution(ps: seq<real>)
    requires AllNonNeg(ps) && Sum(ps) > 0.0
    ensures IsDistribution(Scale(ps, Sum(ps)))
  {
    ScaleBySumSumsToOne(ps);
    ScaleBySumBounded(ps);
  }

  lemma ScaleBySumSumsToOne(ps: seq<real>)
    requires Sum(ps) != 0.0
    ensures Sum(Scale(ps, Sum(ps))) == 1.0
  {
    var total := Sum(ps);
    SumScale(ps, total);
    Quotient(1.0, total, total);
  }

  lemma ScaleBySumBounded(ps: seq<real>)
    requires AllNonNeg(ps) && Sum(ps) > 0.0
    ensures AllUnit(Scale(ps, Sum(ps)))
  {
    var total := Sum(ps);
    var r := Scale(ps, total);
    forall i | 0 <= i < |ps|
      ensures 0.0 <= r[i] <= 1.0
    {
      TermAtMostSum(ps, i);
      DivUnit(ps[i], total);
    }
  }

  /** The rescaling step: `sum <= 0 ? null : ps.map(p => p / sum)`. */
  function Normalise(ps: seq<real>): (r: Option<seq<real>>)
    requires AllNonNeg(ps)
    ensures r.None? <==> forall i :: 0 <= i < |ps| ==> ps[i] == 0.0
    ensures r.Some? ==> |r.value| == |ps| && IsDistribution(r.value)
    ensures r.Some? ==> Proportional(r.value, ps)
    ensures r.Some? ==> forall i :: 0 <= i < |ps| ==> (r.value[i] == 0.0 <==> ps[i] == 0.0)
  {
    var total := Sum(ps);
    SumNonNeg(ps);
    if total <= 0.0 then None
    else
      ScaleBySumIsDistribution(ps);
      ScaleProportional(ps, total);
      Some(Scale(ps, total))
  }

  /** `removeVigProportional(odds)` of the Worker build, applied to finite
      prices. */
  function RemoveVigProportional(odds: seq<real>): (r: Option<seq<real>>)
    ensures r.None? <==> forall i :: 0 <= i < |odds| ==> odds[i] <= 1.0
    ensures r.Some? ==> |r.value| == |odds| && IsDistribution(r.value)
    ensures r.Some? ==> forall i :: 0 <= i < |odds| ==> (r.value[i] == 0.0 <==> odds[i] <= 1.0)
    ensures r.Some? ==> Proportional(r.value, Implied(odds))
  {
    Normalise(Implied(odds))
  }

  /** `removeVigProportional(prices)` of the Express build, whose caller only
      rules out NaN, so an infinite price reaches it. */
  function RemoveVigNum(odds: seq<Num>): (r: Option<seq<real>>)
    requires forall i :: 0 <= i < |odds| ==> !odds[i].NaN?
    ensures r.None? <==> forall i :: 0 <= i < |odds| ==> !(odds[i].Fin? && odds[i].v > 1.0)
    ensures r.Some? ==> |r.value| == |odds| && IsDistribution(r.value)
    ensures r.Some? ==> forall i :: 0 <= i < |odds| ==> (r.value[i] == 0.0 <==> !(odds[i].Fin? && odds[i].v > 1.0))
    ensures r.Some? ==> Proportional(r.value, ImpliedNum(odds))
  {
    Normalise(ImpliedNum(odds))
  }

  /** On finite prices the two builds remove the vig identically. */
  lemma RemoveVigBuildsAgree(odds: seq<Num>)
    requires forall i :: 0 <= i < |odds| ==> odds[i].Fin?
    ensures RemoveVigNum(odds) == RemoveVigProportional(seq(|odds|, i requires 0 <= i < |odds| => odds[i].v))
  {
    var vs := seq(|odds|, i requires 0 <= i < |odds| => odds[i].v);
    assert ImpliedNum(odds) == Implied(vs);
  }
}

=== FILE: wrappers.dfy ===
/** The optional value the model uses for JavaScript's `null` results (a
    missing vig-free vector, an unreadable score, a bookmaker that is not
    yet known). */
module Wrappers {

  datatype Option<+T> = None | Some(value: T)
}
